=== FILE: README.md ===
# Media sensor — a Dafny model

The home-automation media sensor watches the audio peak meter of the
default output device. It classifies the meter as `Stopped` (exactly zero),
`Standby` (a non-zero trickle of at most 1E-08) or `Playing`, and debounces
that classification with a polling timer and a one-shot latch timer. It
publishes each debounced change. `Core` merges the debounced media state with
the operator's override (`FromMedia`, `On`, `Off`, `Shutdown`) into the target
it sends to a Home Assistant endpoint. The endpoint reads its URL and token
from a `key: value # comment` file parsed by `ConfigurationReader`.

Two revisions are modelled:

- the current one: `Sensor.cs`, `Core.cs`, `ApiEndpoint.cs` and
  `ConfigurationReader.cs`;
- the earlier one under `MediaSensor/`. It has one timer and no debounce,
  its endpoint is configured through the constructor, and its reader knows
  only `url` and `token`.

Each class is a module over an immutable state datatype:

- `Sensor`, `LegacySensor`: the samplers;
- `Core`: the engine;
- `Endpoint`, `LegacyEndpoint`: the endpoint clients;
- `Configuration`, `LegacyConfiguration`: the readers.

Shared pieces live in `Data` (the two enums), `Text` (.NET `Trim`,
`IndexOf`, `IsNullOrWhiteSpace`, `Char.IsWhiteSpace`), `Parsing` (`Int32.Parse`,
`Boolean.Parse`), `Results` (`Option`/`Result` in place of null and
exceptions) and `Seqs`.

The models replace the runtime machinery as follows:

- Timers are flags, and timer callbacks are step functions.
- Events raised (`StateChanged`, `StateUpdated`) and endpoint notifications
  are the sequence of outputs a step returns.
- A trace of inputs is folded by `Run`.
- The meter reading is a parameter of the poll step.
- The configuration file is passed in as its lines, or `None` when it does
  not exist.

The central properties:

- **Sensor:** the events a sensor emits form an exact change log (no
  repeats, the last one is the latched state). Without a latch expiry
  nothing is published. A flicker shorter than the latch interval is never
  published.
- **Core:** through any run of sensor events, toggles and shutdown, the
  last target sent to the endpoint is the target the engine's state
  implies.
- **Configuration:** a line splits at its first ':' and first '#'. Lines
  after the last required key are ignored. The first missing key is the one
  reported.

## Model

| member | source | states |
|---|---|---|
| Sensor.Classify | Sensor.cs:134-139 | A zero peak is `Stopped`, a non-zero peak up to 1E-08 is `Standby`, a larger one is `Playing`; each class holds exactly on its band |
| Sensor.ClassifyMonotonic | Sensor.cs:134-139 | On non-negative meter values a louder level never classifies as a quieter state |
| Sensor.New | Sensor.cs:15-33 | A new sensor has no timers and both its latched and transient states are the enum default `Stopped` |
| Sensor.Initialize | Sensor.cs:35-43 | Initialization creates both timers without starting them and leaves both states as they were |
| Sensor.Start | Sensor.cs:45-51 | Start runs the polling timer only on an initialized sensor and is a no-op otherwise |
| Sensor.Stop | Sensor.cs:53-60 | Stop leaves neither timer running and changes nothing else |
| Sensor.StopIdempotent | Sensor.cs:53-60 | Stopping twice is stopping once |
| Sensor.PollElapsed | Sensor.cs:70-79 | A poll records the new sample as the transient state and restarts the latch only when the sample changed; it never touches the latched state and never emits |
| Sensor.LatchElapsed | Sensor.cs:81-95 | A latch expiry disarms the latch and makes the transient state current, leaving every other field alone; it emits that state exactly when it differs from the latched one, and averts the glitch otherwise |
| Sensor.Next | Sensor.cs:35-95 | Every call and timer expiry keeps the invariant that timers exist only on an initialized sensor |
| Sensor.Run | Sensor.cs:35-95 | A whole trace keeps that invariant |
| Sensor.RunEmitsChangeLog | Sensor.cs:86-90 | `StateChanged` fires only on a change: consecutive events differ, the first differs from the starting state, and the last is the final latched state |
| Sensor.NoLatchNoChange | Sensor.cs:70-95 | While the latch never expires nothing is emitted and the latched state is unchanged, whatever the samples |
| Sensor.SilentAfterStop | Sensor.cs:53-95 | After `Stop` and until the next `Start`, no event is emitted and the latched state is unchanged |
| Sensor.PollThenLatchPromotes | Sensor.cs:70-95 | A poll that changes the transient state followed by a latch expiry publishes that state exactly once |
| Sensor.FlickerSuppressed | Sensor.cs:81-95 | Silence, a standby trickle and silence again within one latch interval publish nothing and leave the sensor as it started |
| Sensor.TricklePromoted | Sensor.cs:70-95 | A standby trickle held through a latch interval is published once as `Standby` |
| Sensor.FlickerSuppressedThenPromoted | Sensor.cs:70-95 | Of a flicker followed by a held trickle, only the held trickle is published |
| LegacySensor.New | MediaSensor/Sensor.cs:12-20 | The earlier sensor starts with its timer stopped and its state `Stopped` |
| LegacySensor.Start | MediaSensor/Sensor.cs:22-25 | Start runs the timer and keeps the state |
| LegacySensor.Stop | MediaSensor/Sensor.cs:27-30 | Stop halts the timer and keeps the state |
| LegacySensor.GetState | MediaSensor/Sensor.cs:85-90 | The earlier classifier agrees with the later one on every level |
| LegacySensor.TimerElapsed | MediaSensor/Sensor.cs:38-46 | Every tick makes the sample current at once and emits it exactly when it changed |
| LegacySensor.RunEmitsChangeLog | MediaSensor/Sensor.cs:38-46 | The earlier sensor's events also form an exact change log |
| LegacySensor.LastTickWins | MediaSensor/Sensor.cs:38-46 | With no debounce, the state after a tick of a running timer is that tick's classification |
| Core.New | Core.cs:18-26 | The override starts `FromMedia` when the configuration enables the sound sensor and `On` otherwise; media starts `Stopped` |
| Core.Target | Core.cs:111-122 | Explicit overrides pass through; `FromMedia` is `Off` while anything is heard, even a trickle, and `On` in silence; `FromMedia` is never sent |
| Core.ExplicitTargetIgnoresMedia | Core.cs:111-122 | Under an explicit override the target does not depend on the media state |
| Core.SetMediaState | Core.cs:77-88 | A repeated state does nothing; a new one is stored and shown, and sent to the endpoint only under `FromMedia` |
| Core.ToggleOverride | Core.cs:90-107 | `FromMedia` toggles to the explicit opposite of what the media implies; `On`/`Off` toggle back to `FromMedia` with a sensor and to each other without; each toggle is shown and sent |
| Core.ToggleFromMediaFlipsTarget | Core.cs:94-99 | Toggling away from `FromMedia` flips the endpoint between on and off |
| Core.ToggleTwiceReturns | Core.cs:100-102 | Two toggles return to the starting override, with or without a sensor |
| Core.EnterShutdown | Core.cs:69-75 | Shutdown sets the override to `Shutdown`, shows it and sends `Shutdown` |
| Core.HandleException | Core.cs:133-139 | A failure stops the sensor's timers and reports the fault with the current states, without calling the endpoint |
| Core.Initialize | Core.cs:28-62 | Initialization either fails with exactly one fault report and the sensor stopped, or leaves the configuration initialized and valid for the endpoint, then shows and sends the result; the fault reported is the first of: configuration unreadable, configuration file created, endpoint rejects the configuration, timer rejects a non-positive delay; with a sensor it initializes and starts it, adopts the state it had latched as the media state and sends the target of the unchanged override for that state; without one only the override changes, to `On` |
| Core.InitializeWithoutSensorNotFromMedia | Core.cs:49-53 | A successful initialization without a sensor never leaves the override at `FromMedia` |
| Core.FreshReaderIgnoresSoundSensor | Core.cs:24-56 | An engine built on a reader that has not yet read its file starts and stays at override `On` through a successful initialization, so its first endpoint call is `On` even when the file enables the sound sensor |
| Core.FreshReaderMissesPlaying | Core.cs:24-56 | After that initialization, a sensor report of `Playing` makes no endpoint call, where the engine built after reading, with the sound sensor enabled, sends `Off` |
| Core.StartAfterReading | Core.cs:18-62 | Building the engine after the reader has read its file fails exactly when initialization would, and on success the override is `FromMedia` exactly when the sound sensor is enabled, so the first endpoint call follows the media state |
| Core.SetMediaStates | Core.cs:64-67 | Forwarding sensor events changes only the engine's media state, which ends as the last event forwarded; no events is a step with no input |
| Core.Next | Core.cs:64-107 | Every command keeps the sensor invariant and the configuration |
| Core.Run | Core.cs:64-107 | A whole run keeps the sensor invariant and the configuration |
| Core.SetMediaStatesSynchronized | Core.cs:77-88 | After any burst of sensor events the endpoint was last sent the target the engine implies |
| Core.NextStaysSynchronized | Core.cs:64-125 | Each command keeps the last target sent equal to the target the engine implies |
| Core.RunStaysSynchronized | Core.cs:64-125 | Through any run of sensor events, toggles and shutdown, the last target sent is the engine's target |
| Core.RunKeepsNoSensorNoFromMedia | Core.cs:100-102 | Without a sensor no run reaches `FromMedia` |
| Endpoint.SensorChanged | ApiEndpoint.cs:52-62 | A repeated report is ignored; a new one is recorded even while overriding and sent only when not overriding |
| Endpoint.Override | ApiEndpoint.cs:64-73 | An override is recorded and sent unless it equals the reported media state |
| Endpoint.StopOverriding | ApiEndpoint.cs:75-82 | Leaving the override resends the reported state unless it equals the overriding one |
| Endpoint.OverrideCanDesynchronize | ApiEndpoint.cs:64-73 | Overriding with `Playing` over `Stopped` media and then with `Stopped` leaves the endpoint showing `Playing` while the effective state is `Stopped` |
| Endpoint.OverrideCorrected | ApiEndpoint.cs:64-73 | The corrected override notifies exactly when the state the endpoint should show changes |
| Endpoint.CorrectedStaysSynchronized | ApiEndpoint.cs:52-82 | With the corrected override, the endpoint keeps showing the effective state through any reports, overrides and returns |
| Endpoint.WireValue | ApiEndpoint.cs:89-99 | `stopped` is sent exactly for `Stopped`, `playing` for any sound including the trickle |
| Endpoint.WireValueDistinguishesOnlySilence | ApiEndpoint.cs:89-99 | Two media states are sent alike exactly when both or neither are silent |
| Endpoint.Payload | ApiEndpoint.cs:114 | The body is the value wrapped in the JSON prefix and suffix |
| Endpoint.PayloadRoundTrip | ApiEndpoint.cs:114 | The value can be read back out of the body |
| Endpoint.New | ApiEndpoint.cs:26-33 | A null sensor is rejected; otherwise the endpoint starts uninitialized and not overriding |
| Endpoint.Validate | ApiEndpoint.cs:37-43 | The configuration is accepted exactly when it is initialized and has a URL and a token that are not blank; the rejections come in that order |
| Endpoint.Initialize | ApiEndpoint.cs:35-50 | A valid configuration's URL and token are adopted and the endpoint becomes initialized; an invalid one fails with the first rejection `Validate` finds |
| Endpoint.OnSensorStateChanged | ApiEndpoint.cs:49-62 | Before a successful `Initialize` reports are not received; after it only the override machine changes, exactly as the machine's own transition says, and the notifications sent are the transition's |
| Endpoint.NotifyEndpoint | ApiEndpoint.cs:84-118 | Notifying fails exactly before initialization; otherwise it posts to the URL with a `Bearer` authorization carrying the token, and a JSON body from which the state's wire value can be read back |
| Endpoint.InitializedEndpointNotifies | ApiEndpoint.cs:35-87 | After a successful `Initialize` every notification builds a request |
| LegacyEndpoint.New | MediaSensor/ApiEndpoint.cs:24-37 | The constructor rejects a blank URL, then a blank token, then a null sensor, naming the parameter; otherwise it is active and not overriding |
| LegacyEndpoint.OnSensorStateChanged | MediaSensor/ApiEndpoint.cs:39-49 | A repeated report is ignored; a new one is recorded and sent only when not overriding |
| LegacyEndpoint.Override | MediaSensor/ApiEndpoint.cs:51-60 | An override is recorded and sent unless it equals the reported state |
| LegacyEndpoint.StopOverriding | MediaSensor/ApiEndpoint.cs:62-69 | Leaving the override resends the reported state unless it equals the overriding one |
| LegacyEndpoint.WireValue | MediaSensor/ApiEndpoint.cs:73-83 | The earlier value mapping is the later one |
| Configuration.KeyOf | ConfigurationReader.cs:57-83 | Exactly the six key names, matched case-sensitively, are recognised |
| Configuration.GetBeforeAndAfter | ConfigurationReader.cs:104-113 | Without the separator the text comes back whole and untrimmed; otherwise it splits at the first separator and both halves are trimmed |
| Configuration.BeforeHasNoSeparator | ConfigurationReader.cs:104-113 | The first half never contains the separator |
| Configuration.SplitsAtFirst | ConfigurationReader.cs:104-113 | `before + separator + after`, with no separator in `before`, splits into the trimmed `before` and `after` |
| Configuration.ParseLineSplitsAtFirstColon | ConfigurationReader.cs:55-56 | `key:value` with no comment yields the trimmed key and value, keeping any ':' inside the value |
| Configuration.ParseLineDropsComment | ConfigurationReader.cs:55-56 | `key:value#comment` yields the trimmed key and the trimmed value; the comment is dropped |
| Configuration.CommentSplitsOff | ConfigurationReader.cs:56 | The value half of a trimmed `value#comment` is the trimmed value |
| Configuration.Assign | ConfigurationReader.cs:57-83 | Each key assigns its own property and no other: `url` and `token` their strings, `poll` and `latch` the value `Int32.Parse` yields, `soundsensor` and `onrestore` the value `Boolean.Parse` yields; it fails exactly when that parse fails |
| Configuration.ApplyEntry | ConfigurationReader.cs:55-83 | An unknown key changes nothing; a recognised key whose value parses is assigned and marked seen; one whose value does not parse stops reading with an `Unparsable` failure and the properties unchanged; `url` and `token` are never seen unassigned |
| Configuration.ParseLines | ConfigurationReader.cs:53-56 | Every line is split into its key and value, in order |
| Configuration.ScanLines | ConfigurationReader.cs:53-87 | The loop only adds seen keys, keeps the initialized flag, fails only on an unparsable value, and never marks `url` or `token` seen without assigning it |
| Configuration.FirstMissing | ConfigurationReader.cs:89-100 | The reported key is missing, and every key checked before it was seen |
| Configuration.ReadConfiguration | ConfigurationReader.cs:47-102 | Reading succeeds exactly when every key was seen before any parse failure, and then `url` and `token` are set |
| Configuration.MissingKeyFails | ConfigurationReader.cs:89-100 | If no line names some key, reading fails; when the failure is a missing key, it is that key or one the code checks before it |
| Configuration.ReportedMissingKeyIsAbsent | ConfigurationReader.cs:89-100 | A key reported missing is named by no line |
| Configuration.ScanWithoutFailureSeesNamedKeys | ConfigurationReader.cs:53-87 | A loop that ends without an exception has either seen every key or every key some line names |
| Configuration.AllKeysPresentSucceeds | ConfigurationReader.cs:53-87 | If every key is named by some line and every recognised line's value parses, reading succeeds |
| Configuration.ScanSeesOnlyNamedKeys | ConfigurationReader.cs:53-87 | The loop marks seen only keys that some line names |
| Configuration.ScanSeesEveryNamedKey | ConfigurationReader.cs:53-87 | When every recognised value parses, the loop never fails and either returns early with all keys seen or sees every key some line names |
| Configuration.KeysOfNamesEntries | ConfigurationReader.cs:55-57 | A key is among the recognised keys of the lines exactly when some line's key names it |
| Configuration.Finish | ConfigurationReader.cs:89-101 | After the loop, a parse failure is kept; otherwise the first missing key in the order url, token, poll, latch, soundsensor, onrestore is reported |
| Configuration.LinesAfterCompletionIgnored | ConfigurationReader.cs:85-86 | Once every key has been seen, further lines have no effect on the loop |
| Configuration.ReadIgnoresLinesAfterCompletion | ConfigurationReader.cs:85-86 | Lines after a complete configuration do not change what is read |
| Configuration.ScanAppendLine | ConfigurationReader.cs:53-83 | Until the loop stops, each line is applied on top of the previous ones, so the last occurrence of a key wins |
| Configuration.Initialize | ConfigurationReader.cs:22-45 | An initialized reader is left alone; a missing file leaves it uninitialized; otherwise the result is the read's, with the reader initialized exactly when reading succeeds |
| Configuration.InitializeIdempotent | ConfigurationReader.cs:24-25 | Initializing an initialized reader again changes nothing |
| LegacyConfiguration.New | MediaSensor/ConfigurationReader.cs:14-21 | A blank file name is rejected; otherwise the reader starts empty and uninitialized |
| LegacyConfiguration.GetBeforeAndAfter | MediaSensor/ConfigurationReader.cs:70-79 | As written, the first half is kept for every separator but NUL and the second half only when the text's length in UTF-16 code units exceeds the separator's code plus one |
| Text.Utf16Length | MediaSensor/ConfigurationReader.cs:77 | `text.Length` counts code units: a single character counts one unit in the Basic Multilingual Plane and two beyond it; a text has between one and two units per character, exactly one precisely when none lies beyond that plane |
| Text.Utf16LengthAppend | MediaSensor/ConfigurationReader.cs:77 | The unit count of a concatenation is the sum of the parts' counts, so with the single-character case every character contributes its own one or two units |
| LegacyConfiguration.GetBeforeAndAfterAgreesWhenLong | MediaSensor/ConfigurationReader.cs:76-77 | The earlier splitter agrees with the corrected one exactly when the text's UTF-16 length exceeds the code plus one or only white space follows the separator |
| LegacyConfiguration.ShortTextLosesSecondHalf | MediaSensor/ConfigurationReader.cs:77 | A text no longer in UTF-16 code units than the separator's code plus one loses its second half |
| LegacyConfiguration.ShortLinesLoseValue | MediaSensor/ConfigurationReader.cs:76-77 | Any `key:value` line of at most 59 UTF-16 code units reads with an empty value, where the corrected splitter keeps the trimmed value |
| LegacyConfiguration.ShortLineLosesValue | MediaSensor/ConfigurationReader.cs:70-79 | A short line with a non-blank value, like the template's `token: asdf # ...`, reads as empty here and as non-empty with the corrected splitter |
| LegacyConfiguration.ReadConfiguration | MediaSensor/ConfigurationReader.cs:43-68 | Reading succeeds only with `url` and `token` set, and otherwise fails with the one exception; it keeps the file name and the initialized flag and never unsets a property |
| LegacyConfiguration.Assign | MediaSensor/ConfigurationReader.cs:50-62 | A `url` line stores its value as the URL, a `token` line as the token, and any other line changes nothing |
| LegacyConfiguration.ReadTakesValuesFromLines | MediaSensor/ConfigurationReader.cs:48-66 | After reading, `url` and `token` each hold the value of some line with that key, or are left as they were when no line has it |
| LegacyConfiguration.ReadUrlFromLines | MediaSensor/ConfigurationReader.cs:48-66 | From any point of the loop, `url` keeps its value or takes a remaining line's; it keeps it when no remaining line has the key and takes one when it was not yet seen |
| LegacyConfiguration.ReadTokenFromLines | MediaSensor/ConfigurationReader.cs:48-66 | The same for `token` |
| LegacyConfiguration.ReadAppendLine | MediaSensor/ConfigurationReader.cs:48-66 | Until the loop returns, reading one more line is reading it on top of the earlier lines' result, with the keys they named counted as seen, so the last value before the return wins |
| LegacyConfiguration.ShortLineParsesEmpty | MediaSensor/ConfigurationReader.cs:50-51 | A line of at most 59 UTF-16 code units whose key has no colon and nothing to trim parses to that key with an empty value |
| LegacyConfiguration.ShortTokenLineReadsEmpty | MediaSensor/ConfigurationReader.cs:43-79 | A `url` line followed by a `token` line of at most 59 UTF-16 code units, as in the template, reads successfully with the URL's value and an empty token |
| LegacyConfiguration.ReadSucceedsIffBothKeys | MediaSensor/ConfigurationReader.cs:43-68 | Reading succeeds exactly when some line has key `url` and some line has key `token` |
| LegacyConfiguration.ReadSucceedsIffKeysPresent | MediaSensor/ConfigurationReader.cs:45-66 | From any point of the loop, it succeeds exactly when each of `url` and `token` was already seen or is the key of some remaining line |
| LegacyConfiguration.LinesAfterBothKeysIgnored | MediaSensor/ConfigurationReader.cs:64-65 | Once both keys are seen, later lines have no effect |
| LegacyConfiguration.Initialize | MediaSensor/ConfigurationReader.cs:23-41 | An initialized reader is left alone; a missing file leaves it uninitialized; otherwise the result is the read's, with the reader initialized exactly when reading succeeds |
| Parsing.ParseInt32 | ConfigurationReader.cs:71-77 | A value parses exactly when it is an optional `+` or `-` followed by one or more decimal digits denoting a number in the 32-bit range, and the result is that number (`-0` gives 0) |
| Parsing.ParseFormatRoundTrip | ConfigurationReader.cs:71-77 | Every 32-bit integer written in decimal parses back to itself |
| Parsing.ParseBool | ConfigurationReader.cs:67-70 | Exactly `true` and `false`, in any letter case, parse, to the matching value |
| Text.Trim | ConfigurationReader.cs:112 | The result has no white space at either end and is no longer than the input |
| Text.TrimRemovesOnlyWhiteSpace | ConfigurationReader.cs:112 | The result is a contiguous slice of the input, and what is removed on either side is white space only |
| Text.TrimAddsNothing | ConfigurationReader.cs:112 | Trimming introduces no character the input lacks |
| Text.TrimOfTrimmed | ConfigurationReader.cs:112 | A string with nothing to trim is its own trim |
| Text.TrimIdempotent | ConfigurationReader.cs:112 | Trimming twice is trimming once |
| Text.TrimEmptyIffWhiteSpace | ConfigurationReader.cs:112 | A string trims to empty exactly when it is all white space |
| Text.TrimAfterWhiteSpacePrefix | ConfigurationReader.cs:112 | Dropping some leading white space does not change the trim |
| Text.TrimAroundCharacter | ConfigurationReader.cs:112 | Trimming around a non-white character keeps it right after what is left of the text before it |
| Text.IndexOf | ConfigurationReader.cs:106-108 | No position exactly when the character is absent; otherwise the position of its first occurrence |
| Text.IndexOfAfterPrefix | ConfigurationReader.cs:106 | In `prefix + c + rest`, with no `c` in `prefix`, the first `c` is right after `prefix` |

## Left out

- The audio meter query (`SensorCore.GetState`'s COM calls) is left out. The meter value is a parameter of each poll, and meter values are `real` rather than IEEE `float`/`double`.
- The timer intervals (`Poll`, `Latch`, the earlier sensor's 500 ms) and wall-clock time are left out. Timers are flags, and an expiry is an input of the trace. Only the timers' rejection of a non-positive interval is modelled, by `Sensor.IntervalsAccepted`.
- Concurrency is left out: timer callbacks on pool threads, `async` continuations and the unobserved tasks `Core` starts. Every step runs to completion before the next.
- The HTTP transport (`HttpClient`, `WebRequest`, the response) is left out. `Endpoint.NotifyEndpoint` yields the request that would be posted.
- File access (`File.Exists`, `File.ReadAllLines`, `File.WriteAllText`) is left out. The reader receives the lines, or `None` for a missing file, and writing the template is not modelled.
- `Sensor.Dispose` and `MediaSensor/Sensor.cs` `Dispose` are left out. They only detach handlers at process exit.
- The window code (`MainWindow.xaml.cs`, both revisions) is not part of this model. The model stops at the events it would receive.
- `Core.UpdateEndpointAsync` passes a `TargetState` to `ApiEndpoint.NotifyEndpoint`, which takes a `MediaState`. The two files come from different revisions. The endpoint call is therefore an output carrying the target, with no wire encoding.
- Core and the endpoint are not composed. `ApiEndpoint.Initialize` also subscribes the endpoint to the sensor, which then posts media states on its own, so Core's synchronization property covers only Core's own endpoint calls.
- The earlier endpoint's `NotifyEndpoint` is left out. Its composite format string `{"state": "{0}"}` has an unescaped brace that `string.Format` rejects, and modelling .NET composite formatting is out of scope.
- Core.ToggleOverride: requires an override other than `Shutdown`. The C# switch has no arm for it and throws before changing anything. `Core.Next` therefore makes a toggle during shutdown a no-op with no output.
- Core.Initialize: an exception from the endpoint's first notification is not modelled. The engine's endpoint call is an output.
- `Sensor.Initialize` called a second time re-creates the timers, and the old ones keep running. The model treats the timers as replaced.
- `ApiEndpoint.Override` and `StopOverriding` reach `NotifyEndpoint` even before `Initialize` and throw there. `Endpoint.Override` models only the override machine and its notifications.
- Parsing.ParseInt32: `Int32.Parse` also accepts trailing NUL characters, which `Trim` keeps because NUL is not white space; the model rejects such a value, where the source would accept it.
- Parsing.ParseInt32 and Parsing.ParseBool follow the invariant culture. `Int32.Parse` takes its sign strings from the current culture, and a culture whose negative sign is not `-` is not modelled, because cultures are data outside the program.
- Parsing.ParseBool: only ASCII letter case is folded. `Boolean.Parse` also strips leading and trailing NUL characters, which `Trim` keeps because NUL is not white space; the model rejects such a value, where the source would accept it.
- Text.Trim: the contract states that the result is trimmed and no longer than the input. That it is the slice of the input between the white-space runs is stated by `Text.TrimRemovesOnlyWhiteSpace`.
- Endpoint.Payload: the contract states only the body's length. That the value is recovered from it is `Endpoint.PayloadRoundTrip`.
- Sensor.Next and Sensor.Run: their contracts state only the timer invariant. The behavioural properties are the lemmas about `Run`.
- Core.Next and Core.Run: their contracts state only the invariant and the unchanged configuration. The synchronization properties are the lemmas about `Run`.
- The earlier endpoint sends the token as a raw `Authorization` header. The request of that revision is not modelled, see above.
- `Configuration.ReadConfiguration`'s Boolean result is left out. The method returns `true` on success and throws otherwise, so its final `return false` is unreachable.

## Findings

| source | as written | input that shows it | evidently intended | confidence | as-written member | corrected member |
|---|---|---|---|---|---|---|
| MediaSensor/ConfigurationReader.cs:76-77 | The guards test `separator > 0` and `separator + 1 < text.Length`, comparing the separator's character code (58 for ':') instead of its index | `token: asdf # Home Assistant long term token`, the earlier template's own line (44 characters), reads with an empty token | `separatorIndex > 0` and `separatorIndex + 1 < text.Length`, as in the later revision | high; not executed | LegacyConfiguration.ShortTokenLineReadsEmpty | Configuration.GetBeforeAndAfter |
| ApiEndpoint.cs:64-73 | `Override` sends only when the new state differs from the reported media state, not from what the endpoint was last told | media `Stopped`; `Override(Playing)` sends `playing`; `Override(Stopped)` sends nothing, and the endpoint keeps showing `playing` | notify when the state the endpoint should show changes | medium; not executed | Endpoint.OverrideCanDesynchronize | Endpoint.OverrideCorrected |
| Core.cs:24-56 | The constructor chooses the override from `Configuration.SoundSensor` before `InitializeAsync` reads the file, and a successful initialization with the sensor keeps that override | a reader not yet initialized, whose `SoundSensor` is still `false`, and a file with `soundsensor: true`: the sensor runs, but the override stays `On` and the endpoint is told `On` whatever is playing | the override follows the configured sound sensor, as when the engine is built after the file is read | low; not executed; the code that builds the engine is not part of this model | Core.FreshReaderMissesPlaying | Core.StartAfterReading |

`Configuration.SplitsAtFirst` proves the intended split about the corrected
splitter, and `LegacyConfiguration.ShortLineLosesValue` shows that it keeps
the value the earlier one loses. `Endpoint.CorrectedStaysSynchronized` proves that the corrected
override keeps the endpoint showing the effective state. The earlier
revision's reader and both endpoints' `Override` are still modelled as
written, because they describe those revisions. `Core.StartAfterReading`
proves that building the engine once the file is read makes the override
follow the sound sensor; `Core.Initialize` is still modelled as written.

=== FILE: configuration.dfy ===
/** The line-oriented `key: value # comment` reader of `ConfigurationReader.cs`.
    The file system is left out: `Initialize` receives the file's lines, or
    `None` when the file does not exist. */
module Configuration {
  import opened Results
  import opened Text
  import opened Parsing
  import opened Seqs

  /** The reader's properties. `None` is a string property never assigned (null). */
  datatype Reader = Reader(
    url: Option<string>,
    token: Option<string>,
    poll: int,
    latch: int,
    soundSensor: bool,
    toggleOnRestore: bool,
    initialized: bool)

  /** A newly constructed reader: every property at its C# default. */
  const Fresh: Reader := Reader(None, None, 0, 0, false, false, false)

  datatype Key = Url | Token | Poll | Latch | SoundSensor | OnRestore

  const AllKeys: set<Key> := {Url, Token, Poll, Latch, SoundSensor, OnRestore}

  /** Why reading stopped with an exception: a required key never appeared,
      or `Int32.Parse` / `Boolean.Parse` rejected its value. */
  datatype ConfigError = MissingKey(key: Key) | Unparsable(key: Key)

  /** The keys are matched exactly, case included. */
  function KeyOf(name: string): (k: Option<Key>)
    ensures k == Some(Url) <==> name == "url"
    ensures k == Some(Token) <==> name == "token"
    ensures k == Some(Poll) <==> name == "poll"
    ensures k == Some(Latch) <==> name == "latch"
    ensures k == Some(SoundSensor) <==> name == "soundsensor"
    ensures k == Some(OnRestore) <==> name == "onrestore"
  {
    if name == "url" then Some(Url)
    else if name == "token" then Some(Token)
    else if name == "soundsensor" then Some(SoundSensor)
    else if name == "poll" then Some(Poll)
    else if name == "latch" then Some(Latch)
    else if name == "onrestore" then Some(OnRestore)
    else None
  }

  /** `GetBeforeAndAfter`: splits at the first `separator` and trims both
      halves; without a separator the text comes back whole and untrimmed. */
  function GetBeforeAndAfter(text: string, separator: char): (r: (string, string))
    ensures separator !in text ==> r == (text, "")
    ensures separator in text ==>
      var i := IndexOf(text, separator).value;
      r == (Trim(text[..i]), Trim(text[i + 1..]))
  {
    match IndexOf(text, separator)
    case None => (text, "")
    case Some(i) =>
      var before := if i > 0 then text[..i] else "";
      var after := if i + 1 < |text| then text[i + 1..] else "";
      assert |text[..i]| == 0 ==> before == text[..i];
      assert |text[i + 1..]| == 0 ==> after == text[i + 1..];
      (Trim(before), Trim(after))
  }

  /** The first half never contains the separator it was split at. */
  lemma BeforeHasNoSeparator(text: string, separator: char)
    requires separator in text
    ensures separator !in GetBeforeAndAfter(text, separator).0
  {
    TrimAddsNothing(text[..IndexOf(text, separator).value], separator);
  }

  /** A text with no separator before the one after `before` splits into
      the trimmed halves around it. */
  lemma SplitsAtFirst(before: string, separator: char, after: string)
    requires separator !in before
    ensures GetBeforeAndAfter(before + [separator] + after, separator) == (Trim(before), Trim(after))
  {
    IndexOfAfterPrefix(before, separator, after);
    SplitAround(before, separator, after);
  }

  /** The key and the value of a line: the key is what precedes the first
      ':', the value what lies between it and the next '#', both trimmed. */
  function ParseLine(line: string): (kv: (string, string)) {
    var (key, rest) := GetBeforeAndAfter(line, ':');
    var (value, comment) := GetBeforeAndAfter(rest, '#');
    (key, value)
  }

  /** A line `key:value` whose value has no comment yields the trimmed key and
      value; a ':' inside the value (as in a URL) is kept. */
  lemma ParseLineSplitsAtFirstColon(key: string, value: string)
    requires ':' !in key && '#' !in value
    ensures ParseLine(key + ":" + value) == (Trim(key), Trim(value))
  {
    var line := key + ":" + value;
    assert line[|key|] == ':';
    assert line[..|key|] == key;
    assert line[|key| + 1..] == value;
    assert IndexOf(line, ':').value == |key|;
    TrimAddsNothing(value, '#');
    TrimOfTrimmed(Trim(value));
  }

  /** A line `key:value#comment` yields the trimmed key and the trimmed text
      between the first ':' and the first '#' after it. */
  lemma ParseLineDropsComment(key: string, value: string, comment: string)
    requires ':' !in key && '#' !in value
    ensures ParseLine(key + ":" + value + "#" + comment) == (Trim(key), Trim(value))
  {
    var rest := value + "#" + comment;
    assert key + ":" + value + "#" + comment == key + [':'] + rest;
    SplitsAtFirst(key, ':', rest);
    CommentSplitsOff(value, comment);
  }

  /** The value half of a trimmed `value#comment` is the trimmed value. */
  lemma CommentSplitsOff(value: string, comment: string)
    requires '#' !in value
    ensures GetBeforeAndAfter(Trim(value + "#" + comment), '#').0 == Trim(value)
  {
    var rest := value + ['#'] + comment;
    assert value + "#" + comment == rest;
    TrimAroundCharacter(value, '#', comment);
    var a := LeadingWhiteSpace(rest);
    var t := Trim(rest);
    SplitsAtFirst(value[a..], '#', t[|value| - a + 1..]);
    TrimAfterWhiteSpacePrefix(value, a);
  }

  /** The state of the reading loop; `failure` is an exception that ended it. */
  datatype Scan = Scan(reader: Reader, seen: set<Key>, failure: Option<ConfigError>)

  /** A key the loop has seen has had its string property assigned. */
  predicate AssignedWhenSeen(sc: Scan) {
    (Url in sc.seen ==> sc.reader.url.Some?) && (Token in sc.seen ==> sc.reader.token.Some?)
  }

  /** Assigns the property `key` names; `None` when the value does not parse.
      Assignment overwrites, so the last occurrence of a key wins. */
  function Assign(reader: Reader, key: Key, value: string): (r: Option<Reader>)
    ensures r.Some? ==> r.value.initialized == reader.initialized
    ensures key == Url ==> r == Some(reader.(url := Some(value)))
    ensures key == Token ==> r == Some(reader.(token := Some(value)))
    ensures key in {Poll, Latch} ==> (r.Some? <==> ParseInt32(value).Some?)
    ensures key in {SoundSensor, OnRestore} ==> (r.Some? <==> ParseBool(value).Some?)
    ensures key == Poll && r.Some? ==> r.value == reader.(poll := ParseInt32(value).value)
    ensures key == Latch && r.Some? ==> r.value == reader.(latch := ParseInt32(value).value)
    ensures key == SoundSensor && r.Some? ==> r.value == reader.(soundSensor := ParseBool(value).value)
    ensures key == OnRestore && r.Some? ==> r.value == reader.(toggleOnRestore := ParseBool(value).value)
    ensures r.Some? <==> Parses(key, value)
  {
    match key
    case Url => Some(reader.(url := Some(value)))
    case Token => Some(reader.(token := Some(value)))
    case SoundSensor =>
      (match ParseBool(value)
       case None => None
       case Some(b) => Some(reader.(soundSensor := b)))
    case Poll =>
      (match ParseInt32(value)
       case None => None
       case Some(n) => Some(reader.(poll := n)))
    case Latch =>
      (match ParseInt32(value)
       case None => None
       case Some(n) => Some(reader.(latch := n)))
    case OnRestore =>
      (match ParseBool(value)
       case None => None
       case Some(b) => Some(reader.(toggleOnRestore := b)))
  }

  /** Whether `value` is acceptable for `key`: any string for `url` and
      `token`, a 32-bit integer for the delays, a Boolean for the flags. */
  predicate Parses(key: Key, value: string) {
    match key
    case Url => true
    case Token => true
    case Poll => ParseInt32(value).Some?
    case Latch => ParseInt32(value).Some?
    case SoundSensor => ParseBool(value).Some?
    case OnRestore => ParseBool(value).Some?
  }

  /** One iteration of the loop, on the line's key and value: a recognised
      key assigns its property and is marked seen; any other line changes
      nothing. */
  function ApplyEntry(sc: Scan, entry: (string, string)): (r: Scan)
    requires sc.failure.None?
    ensures KeyOf(entry.0).None? ==> r == sc
    ensures KeyOf(entry.0).Some? && Parses(KeyOf(entry.0).value, entry.1) ==>
      r == Scan(Assign(sc.reader, KeyOf(entry.0).value, entry.1).value, sc.seen + {KeyOf(entry.0).value}, None)
    ensures KeyOf(entry.0).Some? && !Parses(KeyOf(entry.0).value, entry.1) ==>
      r == sc.(failure := Some(Unparsable(KeyOf(entry.0).value)))
    ensures r.failure.None? ==> sc.seen <= r.seen
    ensures r.failure.Some? ==> r.reader == sc.reader && r.failure.value.Unparsable?
    ensures r.reader.initialized == sc.reader.initialized
    ensures AssignedWhenSeen(sc) ==> AssignedWhenSeen(r)
  {
    match KeyOf(entry.0)
    case None => sc
    case Some(k) =>
      match Assign(sc.reader, k, entry.1)
      case None => sc.(failure := Some(Unparsable(k)))
      case Some(reader) => Scan(reader, sc.seen + {k}, None)
  }

  /** Every line split into key and value. */
  function ParseLines(lines: seq<string>): (entries: seq<(string, string)>)
    ensures |entries| == |lines|
    ensures forall i :: 0 <= i < |lines| ==> entries[i] == ParseLine(lines[i])
  {
    Map(ParseLine, lines)
  }

  lemma ParseLinesAppend(lines: seq<string>, more: seq<string>)
    ensures ParseLines(lines + more) == ParseLines(lines) + ParseLines(more)
  {
    MapAppend(ParseLine, lines, more);
  }

  predicate Complete(seen: set<Key>) {
    AllKeys <= seen
  }

  /** The `foreach` loop: stops at an exception, or as soon as every key has
      been seen. */
  function ScanLines(sc: Scan, lines: seq<(string, string)>): (r: Scan)
    requires sc.failure.None?
    ensures r.failure.None? ==> sc.seen <= r.seen
    ensures r.failure.Some? ==> r.failure.value.Unparsable?
    ensures r.reader.initialized == sc.reader.initialized
    ensures AssignedWhenSeen(sc) ==> AssignedWhenSeen(r)
    decreases |lines|
  {
    if |lines| == 0 then sc
    else
      var next := ApplyEntry(sc, lines[0]);
      if next.failure.Some? || Complete(next.seen) then next
      else ScanLines(next, lines[1..])
  }

  /** Report order of missing keys. */
  function KeyRank(k: Key): nat {
    match k
    case Url => 0
    case Token => 1
    case Poll => 2
    case Latch => 3
    case SoundSensor => 4
    case OnRestore => 5
  }

  /** The first key, in the order url, token, poll, latch, soundsensor,
      onrestore, that was not seen. */
  function FirstMissing(seen: set<Key>): (k: Key)
    requires !Complete(seen)
    ensures k !in seen
    ensures forall j: Key :: KeyRank(j) < KeyRank(k) ==> j in seen
  {
    if Url !in seen then Url
    else if Token !in seen then Token
    else if Poll !in seen then Poll
    else if Latch !in seen then Latch
    else if SoundSensor !in seen then SoundSensor
    else OnRestore
  }

  /** `ReadConfiguration` over the file's lines: the reader as the loop left
      it, and the exception, if any. Properties assigned before an exception
      keep their new values. The C# method's final `return false` cannot be
      reached, so its result is not modelled. */
  function ReadConfiguration(reader: Reader, lines: seq<string>): (r: (Reader, Option<ConfigError>))
    ensures r.0.initialized == reader.initialized
    ensures r.1.None? ==> r.0.url.Some? && r.0.token.Some?
    ensures r.1.None? <==> Complete(ScanLines(Scan(reader, {}, None), ParseLines(lines)).seen)
                            && ScanLines(Scan(reader, {}, None), ParseLines(lines)).failure.None?
  {
    Finish(ScanLines(Scan(reader, {}, None), ParseLines(lines)))
  }

  /** The checks after the loop: the first missing key, in the order url,
      token, poll, latch, soundsensor, onrestore, is the exception; it is
      reported only when every key before it was present. */
  function Finish(sc: Scan): (r: (Reader, Option<ConfigError>))
    ensures r.0 == sc.reader
    ensures r.1.None? <==> Complete(sc.seen) && sc.failure.None?
    ensures sc.failure.Some? ==> r.1 == sc.failure
    ensures r.1.Some? && r.1.value.MissingKey? && sc.failure.None? ==>
      r.1.value.key !in sc.seen && forall j: Key :: KeyRank(j) < KeyRank(r.1.value.key) ==> j in sc.seen
  {
    if sc.failure.Some? then (sc.reader, sc.failure)
    else if Complete(sc.seen) then (sc.reader, None)
    else (sc.reader, Some(MissingKey(FirstMissing(sc.seen))))
  }

  /** Once every key has been seen the loop returns: lines after that point
      have no effect on the outcome. */
  lemma {:induction false} LinesAfterCompletionIgnored(sc: Scan, lines: seq<(string, string)>, more: seq<(string, string)>)
    requires sc.failure.None? && !Complete(sc.seen)
    requires ScanLines(sc, lines).failure.None? && Complete(ScanLines(sc, lines).seen)
    ensures ScanLines(sc, lines + more) == ScanLines(sc, lines)
    decreases |lines|
  {
    assert |lines| > 0;
    assert (lines + more)[0] == lines[0];
    var next := ApplyEntry(sc, lines[0]);
    if next.failure.None? && !Complete(next.seen) {
      assert (lines + more)[1..] == lines[1..] + more;
      LinesAfterCompletionIgnored(next, lines[1..], more);
    }
  }

  lemma ReadIgnoresLinesAfterCompletion(reader: Reader, lines: seq<string>, more: seq<string>)
    requires ReadConfiguration(reader, lines).1.None?
    ensures ReadConfiguration(reader, lines + more) == ReadConfiguration(reader, lines)
  {
    var sc := Scan(reader, {}, None);
    assert !Complete(sc.seen) by { assert Url !in sc.seen; }
    ParseLinesAppend(lines, more);
    LinesAfterCompletionIgnored(sc, ParseLines(lines), ParseLines(more));
  }

  /** Until the loop stops, each line is applied on top of the previous ones,
      so a repeated key's last occurrence wins. */
  lemma {:induction false} ScanAppendLine(sc: Scan, lines: seq<(string, string)>, line: (string, string))
    requires sc.failure.None? && !Complete(sc.seen)
    requires ScanLines(sc, lines).failure.None? && !Complete(ScanLines(sc, lines).seen)
    ensures ScanLines(sc, lines + [line]) == ApplyEntry(ScanLines(sc, lines), line)
    decreases |lines|
  {
    if |lines| == 0 {
      assert lines + [line] == [line];
    } else {
      assert (lines + [line])[0] == lines[0];
      assert (lines + [line])[1..] == lines[1..] + [line];
      ScanAppendLine(ApplyEntry(sc, lines[0]), lines[1..], line);
    }
  }

  /** The recognised keys among the entries. */
  function KeysOf(entries: seq<(string, string)>): set<Key>
    decreases |entries|
  {
    if |entries| == 0 then {}
    else (match KeyOf(entries[0].0) case None => {} case Some(k) => {k}) + KeysOf(entries[1..])
  }

  /** A key is among `KeysOf(entries)` exactly when some entry names it. */
  lemma {:induction false} KeysOfNamesEntries(entries: seq<(string, string)>, k: Key)
    ensures k in KeysOf(entries) <==> exists i :: 0 <= i < |entries| && KeyOf(entries[i].0) == Some(k)
    decreases |entries|
  {
    if |entries| > 0 {
      KeysOfNamesEntries(entries[1..], k);
      if k in KeysOf(entries[1..]) {
        var i :| 0 <= i < |entries[1..]| && KeyOf(entries[1..][i].0) == Some(k);
        assert KeyOf(entries[i + 1].0) == Some(k);
      }
      if exists i :: 0 <= i < |entries| && KeyOf(entries[i].0) == Some(k) {
        var i :| 0 <= i < |entries| && KeyOf(entries[i].0) == Some(k);
        if i > 0 {
          assert KeyOf(entries[1..][i - 1].0) == Some(k);
        }
      }
    }
  }

  /** Every recognised key comes with a value it accepts. */
  predicate AllParse(entries: seq<(string, string)>) {
    forall i :: 0 <= i < |entries| && KeyOf(entries[i].0).Some? ==> Parses(KeyOf(entries[i].0).value, entries[i].1)
  }

  /** The loop marks seen only keys some line names. */
  lemma {:induction false} ScanSeesOnlyNamedKeys(sc: Scan, entries: seq<(string, string)>)
    requires sc.failure.None?
    ensures ScanLines(sc, entries).seen <= sc.seen + KeysOf(entries)
    decreases |entries|
  {
    if |entries| > 0 {
      var next := ApplyEntry(sc, entries[0]);
      if next.failure.None? && !Complete(next.seen) {
        ScanSeesOnlyNamedKeys(next, entries[1..]);
      }
    }
  }

  /** When every recognised value parses, the loop never fails, and it
      either completes or has seen every key the lines name. */
  lemma {:induction false} ScanSeesEveryNamedKey(sc: Scan, entries: seq<(string, string)>)
    requires sc.failure.None? && AllParse(entries)
    ensures ScanLines(sc, entries).failure.None?
    ensures Complete(ScanLines(sc, entries).seen) || sc.seen + KeysOf(entries) <= ScanLines(sc, entries).seen
    decreases |entries|
  {
    if |entries| > 0 {
      var next := ApplyEntry(sc, entries[0]);
      assert KeyOf(entries[0].0).Some? ==> Parses(KeyOf(entries[0].0).value, entries[0].1);
      if !Complete(next.seen) {
        assert AllParse(entries[1..]) by {
          forall i | 0 <= i < |entries[1..]| && KeyOf(entries[1..][i].0).Some?
            ensures Parses(KeyOf(entries[1..][i].0).value, entries[1..][i].1)
          {
            assert entries[1..][i] == entries[i + 1];
          }
        }
        ScanSeesEveryNamedKey(next, entries[1..]);
      }
    }
  }

  /** A key no line names makes reading fail; the key reported missing is
      that one or one checked before it. */
  lemma MissingKeyFails(reader: Reader, lines: seq<string>, k: Key)
    requires forall i :: 0 <= i < |lines| ==> KeyOf(ParseLine(lines[i]).0) != Some(k)
    ensures ReadConfiguration(reader, lines).1.Some?
    ensures ReadConfiguration(reader, lines).1.value.MissingKey? ==>
      KeyRank(ReadConfiguration(reader, lines).1.value.key) <= KeyRank(k)
  {
    var entries := ParseLines(lines);
    assert forall i :: 0 <= i < |entries| ==> KeyOf(entries[i].0) != Some(k);
    KeysOfNamesEntries(entries, k);
    MissingKeyFailsScan(Scan(reader, {}, None), entries, k);
  }

  lemma MissingKeyFailsScan(sc: Scan, entries: seq<(string, string)>, k: Key)
    requires sc.failure.None? && sc.seen == {} && k !in KeysOf(entries)
    ensures Finish(ScanLines(sc, entries)).1.Some?
    ensures Finish(ScanLines(sc, entries)).1.value.MissingKey? ==>
      KeyRank(Finish(ScanLines(sc, entries)).1.value.key) <= KeyRank(k)
  {
    ScanSeesOnlyNamedKeys(sc, entries);
    var r := ScanLines(sc, entries);
    assert k !in r.seen;
  }

  /** A loop that ends without an exception either completes or has seen
      every key the lines name. */
  lemma {:induction false} ScanWithoutFailureSeesNamedKeys(sc: Scan, entries: seq<(string, string)>)
    requires sc.failure.None?
    ensures ScanLines(sc, entries).failure.None? ==>
      Complete(ScanLines(sc, entries).seen) || sc.seen + KeysOf(entries) <= ScanLines(sc, entries).seen
    decreases |entries|
  {
    if |entries| > 0 {
      var next := ApplyEntry(sc, entries[0]);
      if next.failure.None? && !Complete(next.seen) {
        ScanWithoutFailureSeesNamedKeys(next, entries[1..]);
      }
    }
  }

  /** The converse of `MissingKeyFails`: a key reported missing is named by
      no line. */
  lemma ReportedMissingKeyIsAbsent(reader: Reader, lines: seq<string>, k: Key)
    requires ReadConfiguration(reader, lines).1 == Some(MissingKey(k))
    ensures forall i :: 0 <= i < |lines| ==> KeyOf(ParseLine(lines[i]).0) != Some(k)
  {
    var entries := ParseLines(lines);
    var sc := Scan(reader, {}, None);
    ScanWithoutFailureSeesNamedKeys(sc, entries);
    var r := ScanLines(sc, entries);
    assert r.failure.None?;
    assert k !in KeysOf(entries);
    KeysOfNamesEntries(entries, k);
    forall i | 0 <= i < |lines|
      ensures KeyOf(ParseLine(lines[i]).0) != Some(k)
    {
      assert entries[i] == ParseLine(lines[i]);
    }
  }

  /** Lines naming all six keys, each recognised one with a value it accepts,
      are read successfully. */
  lemma AllKeysPresentSucceeds(reader: Reader, lines: seq<string>)
    requires AllKeys <= KeysOf(ParseLines(lines))
    requires AllParse(ParseLines(lines))
    ensures ReadConfiguration(reader, lines).1.None?
  {
    ScanSeesEveryNamedKey(Scan(reader, {}, None), ParseLines(lines));
  }

  /** `Initialize`: does nothing once initialized; without a file it writes the
      template and stays uninitialized; otherwise it reads the file and is
      initialized unless reading threw. */
  function Initialize(reader: Reader, file: Option<seq<string>>): (r: (Reader, Option<ConfigError>))
    ensures reader.initialized ==> r == (reader, None)
    ensures !reader.initialized && file.None? ==> r == (reader, None)
    ensures !reader.initialized && file.Some? ==> r.0.initialized == r.1.None?
    ensures r.0.initialized && !reader.initialized ==> r.0.url.Some? && r.0.token.Some?
    ensures !reader.initialized && file.Some? ==>
      var (read, error) := ReadConfiguration(reader, file.value);
      r == (read.(initialized := error.None?), error)
  {
    if reader.initialized then (reader, None)
    else match file
      case None => (reader.(initialized := false), None)
      case Some(lines) =>
        var (read, error) := ReadConfiguration(reader, lines);
        if error.Some? then (read, error) else (read.(initialized := true), None)
  }

  /** Initializing an initialized reader again changes nothing. */
  lemma InitializeIdempotent(reader: Reader, file: Option<seq<string>>, again: Option<seq<string>>)
    requires Initialize(reader, file).0.initialized
    ensures Initialize(Initialize(reader, file).0, again) == (Initialize(reader, file).0, None)
  {
  }
}

=== FILE: core.dfy ===
/** `Core.cs`: merges the debounced media state with the operator's override
    into the target the endpoint is told. Raised `StateUpdated` events and
    endpoint calls become the outputs of each operation, in order. */
module Core {
  import opened Results
  import opened Data
  import Configuration
  import Sensor
  import Endpoint

  /** The exception an update carries. */
  datatype Fault =
    | ConfigurationFault(configError: Configuration.ConfigError)  // reading the file threw
    | ConfigurationCreated                                  // the template was just written
    | EndpointFault(endpointError: Endpoint.EndpointError)          // the endpoint rejected the configuration
    | TimerFault                                            // a timer rejected its poll or latch delay

  /** `UpdateArgs`. */
  datatype Update = Update(media: MediaState, override: TargetState, fault: Option<Fault>)

  datatype Output = UiUpdate(update: Update) | EndpointCall(target: TargetState)

  datatype Engine = Engine(
    config: Configuration.Reader,
    override: TargetState,
    media: MediaState,
    sensor: Sensor.SensorState)

  predicate Valid(e: Engine) {
    Sensor.Valid(e.sensor)
  }

  predicate HasSensor(e: Engine) {
    e.config.soundSensor
  }

  /** The constructor: the override starts `FromMedia` when the reader, as it
      stands at construction, enables the sound sensor, and `On` otherwise. */
  function New(config: Configuration.Reader): (e: Engine)
    ensures Valid(e)
    ensures config.soundSensor ==> e.override == FromMedia
    ensures !config.soundSensor ==> e.override == On
    ensures e.media == Stopped && !e.sensor.initialized
  {
    Engine(config, if config.soundSensor then FromMedia else On, DefaultMediaState, Sensor.New())
  }

  /** The target table of `UpdateEndpointAsync`: explicit modes pass through;
      `FromMedia` turns the target off while anything, even a standby trickle,
      is heard, and on in silence. */
  function Target(override: TargetState, media: MediaState): (t: TargetState)
    ensures t != FromMedia
    ensures override != FromMedia ==> t == override
    ensures override == FromMedia ==> (t == Off <==> media != Stopped)
    ensures override == FromMedia ==> (t == On <==> media == Stopped)
  {
    match override
    case On => On
    case Off => Off
    case Shutdown => Shutdown
    case FromMedia =>
      match media
      case Playing => Off
      case Standby => Off
      case Stopped => On
  }

  /** An explicit override masks the media state entirely. */
  lemma ExplicitTargetIgnoresMedia(override: TargetState, a: MediaState, b: MediaState)
    requires override != FromMedia
    ensures Target(override, a) == Target(override, b)
  {
  }

  function UpdateUi(e: Engine): Output {
    UiUpdate(Update(e.media, e.override, None))
  }

  function UpdateEndpoint(e: Engine): Output {
    EndpointCall(Target(e.override, e.media))
  }

  datatype Step = Step(engine: Engine, outputs: seq<Output>)

  /** A new media state is stored and shown; the endpoint is told only when
      the target follows the media. A repeated state does nothing at all. */
  function SetMediaState(e: Engine, state: MediaState): (r: Step)
    ensures state == e.media ==> r == Step(e, [])
    ensures state != e.media ==> r.engine == e.(media := state)
    ensures state != e.media ==> |r.outputs| >= 1 && r.outputs[0] == UiUpdate(Update(state, e.override, None))
    ensures state != e.media && e.override == FromMedia ==>
      r.outputs == [UiUpdate(Update(state, e.override, None)), EndpointCall(Target(FromMedia, state))]
    ensures state != e.media && e.override != FromMedia ==> |r.outputs| == 1
  {
    if state == e.media then Step(e, [])
    else
      var next := e.(media := state);
      Step(next, [UpdateUi(next)] + if next.override == FromMedia then [UpdateEndpoint(next)] else [])
  }

  /** The override cycle: with a sensor, `FromMedia` goes to the explicit
      opposite of what the media implies and `On`/`Off` go back to
      `FromMedia`; without one, `On` and `Off` alternate. Every toggle shows
      the new state and tells the endpoint. The C# switch has no arm for
      `Shutdown` and throws there. */
  function ToggleOverride(e: Engine): (r: Step)
    requires e.override != Shutdown
    ensures r.engine == e.(override := r.engine.override)
    ensures e.override == FromMedia ==> r.engine.override == (if e.media == Stopped then Off else On)
    ensures e.override in {On, Off} && HasSensor(e) ==> r.engine.override == FromMedia
    ensures e.override == On && !HasSensor(e) ==> r.engine.override == Off
    ensures e.override == Off && !HasSensor(e) ==> r.engine.override == On
    ensures r.outputs == [UiUpdate(Update(e.media, r.engine.override, None)),
                          EndpointCall(Target(r.engine.override, e.media))]
  {
    var override := match e.override
      case FromMedia => (match e.media
        case Playing => On
        case Standby => On
        case Stopped => Off)
      case On => if HasSensor(e) then FromMedia else Off
      case Off => if HasSensor(e) then FromMedia else On;
    var next := e.(override := override);
    Step(next, [UpdateUi(next), UpdateEndpoint(next)])
  }

  /** Toggling away from `FromMedia` always flips the endpoint between on and
      off: the explicit override is the opposite of what the media implied. */
  lemma ToggleFromMediaFlipsTarget(e: Engine)
    requires e.override == FromMedia
    ensures Target(FromMedia, e.media) in {On, Off}
    ensures Target(ToggleOverride(e).engine.override, e.media) in {On, Off}
    ensures Target(ToggleOverride(e).engine.override, e.media) != Target(FromMedia, e.media)
  {
  }

  /** Without a sensor two toggles return to the start; with one, two toggles
      from `FromMedia` return to `FromMedia`. */
  lemma ToggleTwiceReturns(e: Engine)
    requires (e.override in {On, Off} && !HasSensor(e)) || (e.override == FromMedia && HasSensor(e))
    ensures ToggleOverride(e).engine.override != Shutdown
    ensures ToggleOverride(ToggleOverride(e).engine).engine.override == e.override
  {
  }

  /** The last step before exit: the target becomes `Shutdown`, shown and sent once. */
  function EnterShutdown(e: Engine): (r: Step)
    ensures r.engine == e.(override := Shutdown)
    ensures r.outputs == [UiUpdate(Update(e.media, Shutdown, None)), EndpointCall(Shutdown)]
  {
    var next := e.(override := Shutdown);
    Step(next, [UpdateUi(next), UpdateEndpoint(next)])
  }

  /** Stops the sensor and reports the fault; nothing else changes and the
      endpoint is not called. */
  function HandleException(e: Engine, fault: Fault): (r: Step)
    requires Valid(e)
    ensures Valid(r.engine)
    ensures r.engine == e.(sensor := Sensor.Stop(e.sensor))
    ensures !r.engine.sensor.polling && !r.engine.sensor.latchArmed
    ensures r.outputs == [UiUpdate(Update(e.media, e.override, Some(fault)))]
  {
    Step(e.(sensor := Sensor.Stop(e.sensor)), [UiUpdate(Update(e.media, e.override, Some(fault)))])
  }

  /** `InitializeAsync`: reads the configuration (`file` is `None` when it does
      not exist), validates it for the endpoint, then either starts the
      sensor and adopts its latched state, or forces `On` when there is no
      sensor, and shows and sends the result. A sensor whose timers reject
      their delays fails before it is initialized. Any failure goes to
      `HandleException`. */
  function Initialize(e: Engine, file: Option<seq<string>>): (r: Step)
    requires Valid(e)
    ensures Valid(r.engine)
    ensures r.engine.config == Configuration.Initialize(e.config, file).0
    ensures |r.outputs| == 1 ==>
      (r.outputs[0].UiUpdate? && r.outputs[0].update.fault.Some?
       && r.engine == e.(config := r.engine.config, sensor := Sensor.Stop(e.sensor)))
    ensures |r.outputs| != 1 ==>
      (r.engine.config.initialized && r.outputs == [UpdateUi(r.engine), UpdateEndpoint(r.engine)])
    ensures |r.outputs| != 1 && !HasSensor(r.engine) ==>
      r.engine == e.(config := r.engine.config, override := On)
    ensures |r.outputs| != 1 && HasSensor(r.engine) ==>
      r.engine == e.(config := r.engine.config, media := e.sensor.current,
                     sensor := e.sensor.(initialized := true, polling := true, latchArmed := false))
    ensures |r.outputs| != 1 && HasSensor(r.engine) ==>
      r.outputs[1] == EndpointCall(Target(e.override, e.sensor.current))
    ensures HasSensor(r.engine) && !Sensor.IntervalsAccepted(r.engine.config.poll, r.engine.config.latch)
      ==> |r.outputs| == 1
    ensures |r.outputs| != 1 ==> Endpoint.Validate(r.engine.config).None?
    ensures Failed(r, e, FaultOf(e.config, file))
  {
    var (config, error) := Configuration.Initialize(e.config, file);
    var read := e.(config := config);
    if error.Some? then HandleException(read, ConfigurationFault(error.value))
    else if !config.initialized then HandleException(read, ConfigurationCreated)
    else match Endpoint.Validate(config)
      case Some(rejected) => HandleException(read, EndpointFault(rejected))
      case None =>
        if config.soundSensor && !Sensor.IntervalsAccepted(config.poll, config.latch) then
          HandleException(read, TimerFault)
        else
          var ready :=
            if config.soundSensor then
              var sensor := Sensor.Start(Sensor.Initialize(read.sensor));
              read.(sensor := sensor, media := sensor.current)
            else read.(override := On);
          Step(ready, [UpdateUi(ready), UpdateEndpoint(ready)])
  }

  /** The fault `Initialize` reports, in the order its steps can throw:
      reading the file, the template just written, the endpoint's checks,
      the timers' delays. `None` when every step passes. */
  function FaultOf(config: Configuration.Reader, file: Option<seq<string>>): Option<Fault> {
    var (read, error) := Configuration.Initialize(config, file);
    if error.Some? then Some(ConfigurationFault(error.value))
    else if !read.initialized then Some(ConfigurationCreated)
    else if Endpoint.Validate(read).Some? then Some(EndpointFault(Endpoint.Validate(read).value))
    else if read.soundSensor && !Sensor.IntervalsAccepted(read.poll, read.latch) then Some(TimerFault)
    else None
  }

  /** `r` is the failure report of `fault` on `e`, or a success when there is none. */
  predicate Failed(r: Step, e: Engine, fault: Option<Fault>) {
    match fault
    case Some(f) => r.outputs == [UiUpdate(Update(e.media, e.override, Some(f)))]
    case None => |r.outputs| == 2
  }

  /** A successful initialization leaves no way to reach `FromMedia` without a sensor. */
  lemma InitializeWithoutSensorNotFromMedia(e: Engine, file: Option<seq<string>>)
    requires Valid(e)
    requires |Initialize(e, file).outputs| != 1
    ensures NoSensorNoFromMedia(Initialize(e, file).engine)
  {
  }

  /** The constructor consults the reader before `Initialize` has read the
      file. Built on a reader that has not read it, the engine starts with the
      override `On`, and a successful initialization keeps it even when the
      file enables the sound sensor: the endpoint is told `On` whatever is
      playing. */
  lemma FreshReaderIgnoresSoundSensor(file: Option<seq<string>>)
    ensures var r := Initialize(New(Configuration.Fresh), file);
      |r.outputs| != 1 ==> r.engine.override == On && r.outputs[1] == EndpointCall(On)
  {
  }

  /** What the endpoint sees next: once the sensor reports `Playing`, the
      engine built on an unread reader calls nothing, while the one built
      after reading, with the sound sensor enabled, turns the target `Off`. */
  lemma FreshReaderMissesPlaying(file: Option<seq<string>>)
    ensures var r := Initialize(New(Configuration.Fresh), file);
      |r.outputs| != 1 ==> forall o :: o in SetMediaState(r.engine, Playing).outputs ==> !o.EndpointCall?
    ensures var r := StartAfterReading(Configuration.Fresh, file);
      |r.outputs| != 1 && HasSensor(r.engine) ==>
        SetMediaState(r.engine, Playing).outputs
          == [UiUpdate(Update(Playing, FromMedia, None)), EndpointCall(Off)]
  {
  }

  /** The engine constructed once the reader has read its file, so that the
      override follows the configured sound sensor. It fails exactly when
      `Initialize` would. */
  function StartAfterReading(config: Configuration.Reader, file: Option<seq<string>>): (r: Step)
    ensures Valid(r.engine)
    ensures |r.outputs| == 1 <==> FaultOf(config, file).Some?
    ensures |r.outputs| != 1 ==> (r.engine.override == FromMedia <==> HasSensor(r.engine))
    ensures |r.outputs| != 1 && HasSensor(r.engine) ==>
      r.outputs == [UpdateUi(r.engine), EndpointCall(Target(FromMedia, r.engine.media))]
  {
    var (read, error) := Configuration.Initialize(config, file);
    if error.Some? || !read.initialized then Initialize(New(config), file)
    else Initialize(New(read), file)
  }

  predicate NoSensorNoFromMedia(e: Engine) {
    !HasSensor(e) ==> e.override != FromMedia
  }

  /** What can happen to an initialized engine. */
  datatype Command = SensorInput(input: Sensor.Input) | Toggle | ShutdownCall

  /** Forwards each sensor event to `SetMediaState`, as the subscription does. */
  function SetMediaStates(e: Engine, states: seq<MediaState>): (r: Step)
    ensures r.engine == e.(media := r.engine.media)
    ensures |states| > 0 ==> r.engine.media == states[|states| - 1]
    ensures |states| == 0 ==> r == Step(e, [])
    decreases |states|
  {
    if |states| == 0 then Step(e, [])
    else
      var first := SetMediaState(e, states[0]);
      var rest := SetMediaStates(first.engine, states[1..]);
      Step(rest.engine, first.outputs + rest.outputs)
  }

  /** One command. `Toggle` while shutting down throws before changing anything. */
  function Next(e: Engine, c: Command): (r: Step)
    requires Valid(e)
    ensures Valid(r.engine)
    ensures r.engine.config == e.config
  {
    match c
    case SensorInput(input) =>
      var s := Sensor.Next(e.sensor, input);
      SetMediaStates(e.(sensor := s.state), s.emitted)
    case Toggle => if e.override == Shutdown then Step(e, []) else ToggleOverride(e)
    case ShutdownCall => EnterShutdown(e)
  }

  function Run(e: Engine, commands: seq<Command>): (r: Step)
    requires Valid(e)
    ensures Valid(r.engine)
    ensures r.engine.config == e.config
    decreases |commands|
  {
    if |commands| == 0 then Step(e, [])
    else
      var first := Next(e, commands[0]);
      var rest := Run(first.engine, commands[1..]);
      Step(rest.engine, first.outputs + rest.outputs)
  }

  /** The target the endpoint was last sent, starting from `before`. */
  function LastTarget(before: TargetState, outputs: seq<Output>): TargetState
    decreases |outputs|
  {
    if |outputs| == 0 then before
    else if outputs[|outputs| - 1].EndpointCall? then outputs[|outputs| - 1].target
    else LastTarget(before, outputs[..|outputs| - 1])
  }

  lemma {:induction false} LastTargetAppend(before: TargetState, a: seq<Output>, b: seq<Output>)
    ensures LastTarget(before, a + b) == LastTarget(LastTarget(before, a), b)
    decreases |b|
  {
    if |b| == 0 {
      assert a + b == a;
    } else {
      assert (a + b)[..|a + b| - 1] == a + b[..|b| - 1];
      LastTargetAppend(before, a, b[..|b| - 1]);
    }
  }

  /** The endpoint shows the target the engine's state implies. */
  predicate Synchronized(e: Engine, sent: TargetState) {
    sent == Target(e.override, e.media)
  }

  lemma {:induction false} SetMediaStatesSynchronized(e: Engine, states: seq<MediaState>, sent: TargetState)
    requires Synchronized(e, sent)
    ensures Synchronized(SetMediaStates(e, states).engine, LastTarget(sent, SetMediaStates(e, states).outputs))
    decreases |states|
  {
    if |states| > 0 {
      var first := SetMediaState(e, states[0]);
      var rest := SetMediaStates(first.engine, states[1..]);
      var mid := LastTarget(sent, first.outputs);
      assert Synchronized(first.engine, mid) by {
        if states[0] != e.media {
          if e.override == FromMedia {
            assert |first.outputs| == 2 && first.outputs[1] == EndpointCall(Target(FromMedia, states[0]));
          } else {
            assert |first.outputs| == 1 && first.outputs[0].UiUpdate?;
            assert first.outputs[..0] == [];
            assert mid == LastTarget(sent, first.outputs[..0]);
            ExplicitTargetIgnoresMedia(e.override, e.media, states[0]);
          }
        }
      }
      SetMediaStatesSynchronized(first.engine, states[1..], mid);
      LastTargetAppend(sent, first.outputs, rest.outputs);
    }
  }

  /** Each command keeps the endpoint showing the engine's target. */
  lemma NextStaysSynchronized(e: Engine, c: Command, sent: TargetState)
    requires Valid(e) && Synchronized(e, sent)
    ensures Synchronized(Next(e, c).engine, LastTarget(sent, Next(e, c).outputs))
  {
    var r := Next(e, c);
    match c
    case SensorInput(input) =>
      var s := Sensor.Next(e.sensor, input);
      assert r == SetMediaStates(e.(sensor := s.state), s.emitted);
      SetMediaStatesSynchronized(e.(sensor := s.state), s.emitted, sent);
    case Toggle =>
      if e.override != Shutdown {
        assert r == ToggleOverride(e);
        assert |r.outputs| == 2 && r.outputs[1] == UpdateEndpoint(r.engine);
      }
    case ShutdownCall =>
      assert r == EnterShutdown(e);
      assert |r.outputs| == 2 && r.outputs[1] == UpdateEndpoint(r.engine);
  }

  /** The endpoint is notified whenever the target changes: once it shows the
      engine's target, it keeps showing it through any run of sensor events,
      toggles and shutdown. */
  lemma {:induction false} RunStaysSynchronized(e: Engine, commands: seq<Command>, sent: TargetState)
    requires Valid(e) && Synchronized(e, sent)
    ensures Synchronized(Run(e, commands).engine, LastTarget(sent, Run(e, commands).outputs))
    decreases |commands|
  {
    if |commands| > 0 {
      var first := Next(e, commands[0]);
      var rest := Run(first.engine, commands[1..]);
      NextStaysSynchronized(e, commands[0], sent);
      var mid := LastTarget(sent, first.outputs);
      RunStaysSynchronized(first.engine, commands[1..], mid);
      LastTargetAppend(sent, first.outputs, rest.outputs);
    }
  }

  /** Without a sensor `FromMedia` stays unreachable through any run. */
  lemma {:induction false} RunKeepsNoSensorNoFromMedia(e: Engine, commands: seq<Command>)
    requires Valid(e) && NoSensorNoFromMedia(e)
    ensures NoSensorNoFromMedia(Run(e, commands).engine)
    decreases |commands|
  {
    if |commands| > 0 {
      RunKeepsNoSensorNoFromMedia(Next(e, commands[0]).engine, commands[1..]);
    }
  }
}

=== FILE: data.dfy ===
/** The two enumerations shared by every component. */
module Data {

  /** Debounced classification of the audio level. The first member is the
      C# enum default, so every `MediaState` field starts out `Stopped`. */
  datatype MediaState = Stopped | Standby | Playing

  const DefaultMediaState: MediaState := Stopped

  /** The override mode: `FromMedia` derives the target from the media state,
      `On` and `Off` are explicit, `Shutdown` is used while the process exits. */
  datatype TargetState = FromMedia | On | Off | Shutdown
}

=== FILE: endpoint.dfy ===
/** `ApiEndpoint.cs`: validates its configuration, tracks the media state and
    a manual override, and turns a media state into the HTTP request it posts.
    The HTTP transport is left out: a notification is the media state it
    carries, and `NotifyEndpoint` yields the request that would be posted. */
module Endpoint {
  import opened Results
  import opened Text
  import opened Data
  import Configuration

  /** The override machine shared by both revisions of the endpoint:
      `current` is the last media state the sensor reported, `overriding` the
      state set by the last `Override`. */
  datatype Overrides = Overrides(isOverriding: bool, current: MediaState, overriding: MediaState)

  const NoOverride: Overrides := Overrides(false, DefaultMediaState, DefaultMediaState)

  /** A transition and the media states it notified the endpoint of, in order. */
  datatype Transition = Transition(machine: Overrides, notified: seq<MediaState>)

  /** A sensor report: a repeat is ignored; a new state is recorded even while
      overriding, but is sent only when not overriding. */
  function SensorChanged(m: Overrides, state: MediaState): (t: Transition)
    ensures state == m.current ==> t == Transition(m, [])
    ensures state != m.current ==> t.machine == m.(current := state)
    ensures state != m.current ==> t.notified == (if m.isOverriding then [] else [state])
  {
    if state != m.current then
      var next := m.(current := state);
      Transition(next, if !next.isOverriding then [next.current] else [])
    else Transition(m, [])
  }

  /** Forces a state: sent unless it equals the reported media state. */
  function Override(m: Overrides, state: MediaState): (t: Transition)
    ensures t.machine.isOverriding && t.machine.overriding == state && t.machine.current == m.current
    ensures t.notified == (if state != m.current then [state] else [])
  {
    var next := m.(isOverriding := true, overriding := state);
    Transition(next, if state != next.current then [state] else [])
  }

  /** Returns to the reported state: sent unless it equals the state of the
      last `Override`. */
  function StopOverriding(m: Overrides): (t: Transition)
    ensures !t.machine.isOverriding
    ensures t.machine.current == m.current && t.machine.overriding == m.overriding
    ensures t.notified == (if m.current != m.overriding then [m.current] else [])
  {
    var next := m.(isOverriding := false);
    Transition(next, if next.current != next.overriding then [next.current] else [])
  }

  /** The state the endpoint should be showing. */
  function Effective(m: Overrides): MediaState {
    if m.isOverriding then m.overriding else m.current
  }

  /** The state the endpoint was last told, after a transition. */
  function LastSent(before: MediaState, notified: seq<MediaState>): MediaState {
    if |notified| == 0 then before else notified[|notified| - 1]
  }

  /** `Override` compares the new state with the reported media state, not with
      the state the endpoint was last told: while overriding with `Playing`
      over a `Stopped` media state, overriding with `Stopped` sends nothing and
      the endpoint is left showing `Playing`. */
  lemma OverrideCanDesynchronize()
    ensures var m := Overrides(true, Stopped, Playing);
      var t := Override(m, Stopped);
      LastSent(Effective(m), t.notified) == Playing && Effective(t.machine) == Stopped
  {
  }

  /** `Override` as evidently intended: it notifies exactly when the state the
      endpoint should show changes. */
  function OverrideCorrected(m: Overrides, state: MediaState): (t: Transition)
    ensures t.machine.isOverriding && t.machine.overriding == state && t.machine.current == m.current
    ensures t.notified == (if state != Effective(m) then [state] else [])
  {
    var next := m.(isOverriding := true, overriding := state);
    Transition(next, if state != Effective(m) then [state] else [])
  }

  datatype Command = Report(state: MediaState) | OverrideWith(state: MediaState) | StopOverride

  /** One command, with `OverrideCorrected` in place of `Override`. */
  function NextCorrected(m: Overrides, c: Command): Transition {
    match c
    case Report(s) => SensorChanged(m, s)
    case OverrideWith(s) => OverrideCorrected(m, s)
    case StopOverride => StopOverriding(m)
  }

  function RunCorrected(m: Overrides, commands: seq<Command>): (t: Transition)
    decreases |commands|
  {
    if |commands| == 0 then Transition(m, [])
    else
      var first := NextCorrected(m, commands[0]);
      var rest := RunCorrected(first.machine, commands[1..]);
      Transition(rest.machine, first.notified + rest.notified)
  }

  lemma LastSentAppend(before: MediaState, a: seq<MediaState>, b: seq<MediaState>)
    ensures LastSent(before, a + b) == LastSent(LastSent(before, a), b)
  {
  }

  /** With the corrected `Override`, an endpoint that shows the effective
      state keeps showing it through any sequence of reports, overrides and
      returns. */
  lemma {:induction false} CorrectedStaysSynchronized(m: Overrides, commands: seq<Command>)
    ensures var t := RunCorrected(m, commands);
      LastSent(Effective(m), t.notified) == Effective(t.machine)
    decreases |commands|
  {
    if |commands| > 0 {
      var first := NextCorrected(m, commands[0]);
      var rest := RunCorrected(first.machine, commands[1..]);
      assert LastSent(Effective(m), first.notified) == Effective(first.machine);
      CorrectedStaysSynchronized(first.machine, commands[1..]);
      LastSentAppend(Effective(m), first.notified, rest.notified);
    }
  }

  /** The value sent for a media state: any sound, even the standby trickle,
      counts as playing. */
  function WireValue(state: MediaState): (v: string)
    ensures v == "stopped" <==> state == Stopped
    ensures v == "playing" <==> state != Stopped
  {
    match state
    case Playing => "playing"
    case Standby => "playing"
    case Stopped => "stopped"
  }

  /** Two media states are sent alike exactly when both or neither are `Stopped`. */
  lemma WireValueDistinguishesOnlySilence(a: MediaState, b: MediaState)
    ensures WireValue(a) == WireValue(b) <==> (a == Stopped) == (b == Stopped)
  {
  }

  const PayloadPrefix: string := "{ \"state\": \""
  const PayloadSuffix: string := "\" }"

  /** The JSON body: `{ "state": "<value>" }`. */
  function Payload(value: string): (body: string)
    ensures |body| == |PayloadPrefix| + |value| + |PayloadSuffix|
  {
    PayloadPrefix + value + PayloadSuffix
  }

  /** Reads the value back out of a body of the `Payload` shape. */
  function PayloadValue(body: string): Option<string> {
    if |body| >= |PayloadPrefix| + |PayloadSuffix|
       && body[..|PayloadPrefix|] == PayloadPrefix
       && body[|body| - |PayloadSuffix|..] == PayloadSuffix
    then Some(body[|PayloadPrefix|..|body| - |PayloadSuffix|])
    else None
  }

  /** The value a body carries can be recovered from it. */
  lemma PayloadRoundTrip(value: string)
    ensures PayloadValue(Payload(value)) == Some(value)
  {
    var body := Payload(value);
    assert body[..|PayloadPrefix|] == PayloadPrefix;
    assert body[|body| - |PayloadSuffix|..] == PayloadSuffix;
    assert body[|PayloadPrefix|..|body| - |PayloadSuffix|] == value;
  }

  datatype ApiEndpoint = ApiEndpoint(
    url: Option<string>,
    token: Option<string>,
    isInitialized: bool,
    machine: Overrides)

  datatype EndpointError =
    | SensorIsNull                    // ArgumentNullException from the constructor
    | ConfigurationNotInitialized     // the InvalidOperationExceptions of Initialize
    | InvalidUrl
    | InvalidToken
    | NotInitialized                  // NotifyEndpoint before Initialize

  /** The constructor; `sensorPresent` is false for a null sensor. */
  function New(sensorPresent: bool): (r: Result<ApiEndpoint, EndpointError>)
    ensures r.Failure? <==> !sensorPresent
    ensures r.Failure? ==> r.error == SensorIsNull
    ensures r.Success? ==> Valid(r.value) && !r.value.isInitialized && r.value.machine == NoOverride
  {
    if !sensorPresent then Failure(SensorIsNull)
    else Success(ApiEndpoint(None, None, false, NoOverride))
  }

  /** The checks of `Initialize`, in order. */
  function Validate(config: Configuration.Reader): (e: Option<EndpointError>)
    ensures e.None? <==> config.initialized && !IsNullOrWhiteSpace(config.url)
                         && !IsNullOrWhiteSpace(config.token)
    ensures !config.initialized ==> e == Some(ConfigurationNotInitialized)
    ensures config.initialized && IsNullOrWhiteSpace(config.url) ==> e == Some(InvalidUrl)
    ensures config.initialized && !IsNullOrWhiteSpace(config.url) && IsNullOrWhiteSpace(config.token)
            ==> e == Some(InvalidToken)
  {
    if !config.initialized then Some(ConfigurationNotInitialized)
    else if IsNullOrWhiteSpace(config.url) then Some(InvalidUrl)
    else if IsNullOrWhiteSpace(config.token) then Some(InvalidToken)
    else None
  }

  /** Takes URL and token from a valid configuration; on an invalid one the
      endpoint is left as it was. */
  function Initialize(ep: ApiEndpoint, config: Configuration.Reader): (r: Result<ApiEndpoint, EndpointError>)
    ensures r.Failure? <==> Validate(config).Some?
    ensures r.Failure? ==> r.error == Validate(config).value
    ensures r.Success? ==> r.value == ep.(url := config.url, token := config.token, isInitialized := true)
    ensures r.Success? ==> Valid(r.value)
  {
    match Validate(config)
    case Some(e) => Failure(e)
    case None => Success(ep.(url := config.url, token := config.token, isInitialized := true))
  }

  /** A report from the sensor; the handler is subscribed only by a successful
      `Initialize`. */
  function OnSensorStateChanged(ep: ApiEndpoint, state: MediaState): (r: (ApiEndpoint, seq<MediaState>))
    ensures !ep.isInitialized ==> r == (ep, [])
    ensures ep.isInitialized ==> r.0 == ep.(machine := r.0.machine)
    ensures ep.isInitialized ==>
      r.0.machine == SensorChanged(ep.machine, state).machine && r.1 == SensorChanged(ep.machine, state).notified
  {
    if !ep.isInitialized then (ep, [])
    else
      var t := SensorChanged(ep.machine, state);
      (ep.(machine := t.machine), t.notified)
  }

  datatype Request = Request(url: string, authorization: string, contentType: string, body: string)

  /** An initialized endpoint has its URL and token. */
  predicate Valid(ep: ApiEndpoint) {
    ep.isInitialized ==> ep.url.Some? && ep.token.Some?
  }

  /** The POST `NotifyEndpoint` issues; it throws before `Initialize`. */
  function NotifyEndpoint(ep: ApiEndpoint, state: MediaState): (r: Result<Request, EndpointError>)
    requires Valid(ep)
    ensures r.Failure? <==> !ep.isInitialized
    ensures r.Success? ==> PayloadValue(r.value.body) == Some(WireValue(state))
    ensures r.Success? ==> r.value.url == ep.url.value && r.value.contentType == "application/json"
    ensures r.Success? ==> r.value.authorization == "Bearer " + ep.token.value
  {
    if !ep.isInitialized then Failure(NotInitialized)
    else
      PayloadRoundTrip(WireValue(state));
      Success(Request(ep.url.value, "Bearer " + ep.token.value, "application/json",
                      Payload(WireValue(state))))
  }

  /** A successful `Initialize` always leaves URL and token set, so after it
      every notification builds a request. */
  lemma InitializedEndpointNotifies(ep: ApiEndpoint, config: Configuration.Reader, state: MediaState)
    requires Initialize(ep, config).Success?
    ensures Valid(Initialize(ep, config).value)
    ensures NotifyEndpoint(Initialize(ep, config).value, state).Success?
  {
  }
}

=== FILE: legacy_configuration.dfy ===
/** The earlier reader, `MediaSensor/ConfigurationReader.cs`: only `url` and
    `token`, a file name given to the constructor, and a splitter whose
    guards test the separator character where they mean its position. */
module LegacyConfiguration {
  import opened Results
  import opened Text
  import Configuration

  datatype Reader = Reader(fileName: string, url: Option<string>, token: Option<string>, initialized: bool)

  datatype ReaderError =
    | FileNameMissing      // ArgumentNullException from the constructor
    | UrlOrTokenMissing    // the exception ReadConfiguration throws

  function New(fileName: Option<string>): (r: Result<Reader, ReaderError>)
    ensures r.Failure? <==> IsNullOrWhiteSpace(fileName)
    ensures r.Success? ==> r.value == Reader(fileName.value, None, None, false)
  {
    if IsNullOrWhiteSpace(fileName) then Failure(FileNameMissing)
    else Success(Reader(fileName.value, None, None, false))
  }

  /** `GetBeforeAndAfter` as written: the guards compare the separator's
      character code (58 for ':', 35 for '#') where the later revision
      compares its index. The first half is therefore taken for every
      separator but NUL, and the second half only when the text is longer
      than the code plus one, counting UTF-16 code units as `text.Length`
      does. */
  function GetBeforeAndAfter(text: string, separator: char): (r: (string, string))
    ensures separator !in text ==> r == (text, "")
    ensures separator in text ==>
      var i := IndexOf(text, separator).value;
      r == (if separator != '\0' then Trim(text[..i]) else "",
            if separator as int + 1 < Utf16Length(text) then Trim(text[i + 1..]) else "")
  {
    match IndexOf(text, separator)
    case None => (text, "")
    case Some(i) =>
      var code := separator as int;
      var before := if code > 0 then text[..i] else "";
      var after := if code + 1 < Utf16Length(text) then text[i + 1..] else "";
      assert code > 0 <==> separator != '\0';
      assert Trim("") == "";
      (Trim(before), Trim(after))
  }

  /** The two splitters agree exactly when the text is long enough or there
      is nothing but white space after the separator. */
  lemma GetBeforeAndAfterAgreesWhenLong(text: string, separator: char, i: nat)
    requires IndexOf(text, separator) == Some(i) && separator != '\0'
    ensures GetBeforeAndAfter(text, separator) == Configuration.GetBeforeAndAfter(text, separator)
      <==> separator as int + 1 < Utf16Length(text) || Trim(text[i + 1..]) == ""
  {
    assert separator in text;
    var legacy := GetBeforeAndAfter(text, separator);
    var corrected := Configuration.GetBeforeAndAfter(text, separator);
    assert corrected == (Trim(text[..i]), Trim(text[i + 1..]));
    if separator as int + 1 < Utf16Length(text) {
      assert legacy == corrected;
    } else {
      assert legacy == (Trim(text[..i]), "");
    }
  }

  /** A text no longer than the separator's code loses its second half. */
  lemma ShortTextLosesSecondHalf(before: string, separator: char, after: string)
    requires separator !in before && separator != '\0'
    requires Utf16Length(before + [separator] + after) <= separator as int + 1
    ensures GetBeforeAndAfter(before + [separator] + after, separator) == (Trim(before), "")
  {
    IndexOfAfterPrefix(before, separator, after);
    SplitAround(before, separator, after);
  }

  /** Any `key: value` line of at most 59 UTF-16 code units loses its value here,
      where the corrected splitter keeps it: the guard compares the length
      with the code of ':' (58) plus one, not with the colon's position. */
  lemma ShortLinesLoseValue(key: string, value: string)
    requires ':' !in key && Utf16Length(key + ":" + value) <= 59
    ensures GetBeforeAndAfter(key + ":" + value, ':') == (Trim(key), "")
    ensures Configuration.GetBeforeAndAfter(key + ":" + value, ':') == (Trim(key), Trim(value))
  {
    assert key + ":" + value == key + [':'] + value;
    ShortTextLosesSecondHalf(key, ':', value);
    Configuration.SplitsAtFirst(key, ':', value);
  }

  /** So the value of a short line with anything but white space after the
      colon (`token: asdf`, say) reads as empty here and as non-empty with the
      corrected splitter. */
  lemma ShortLineLosesValue(key: string, value: string, i: nat)
    requires ':' !in key && Utf16Length(key + ":" + value) <= 59
    requires i < |value| && !IsWhiteSpace(value[i])
    ensures GetBeforeAndAfter(key + ":" + value, ':').1 == ""
    ensures Configuration.GetBeforeAndAfter(key + ":" + value, ':').1 != ""
  {
    ShortLinesLoseValue(key, value);
    TrimEmptyIffWhiteSpace(value);
  }

  /** Key and value of a line, with this revision's splitter. */
  function ParseLine(line: string): (string, string) {
    var (key, rest) := GetBeforeAndAfter(line, ':');
    var (value, comment) := GetBeforeAndAfter(rest, '#');
    (key, value)
  }

  /** The `switch` of one iteration: `url` and `token` store the line's
      value, any other key leaves the reader alone. */
  function Assign(reader: Reader, line: string): (r: Reader)
    ensures ParseLine(line).0 == "url" ==> r == reader.(url := Some(ParseLine(line).1))
    ensures ParseLine(line).0 == "token" ==> r == reader.(token := Some(ParseLine(line).1))
    ensures ParseLine(line).0 != "url" && ParseLine(line).0 != "token" ==> r == reader
  {
    var (key, value) := ParseLine(line);
    if key == "url" then reader.(url := Some(value))
    else if key == "token" then reader.(token := Some(value))
    else reader
  }

  /** The loop: `url` and `token` are assigned, anything else is ignored, and
      it returns as soon as both have been seen; otherwise it throws. */
  function ReadConfiguration(reader: Reader, lines: seq<string>, gotUrl: bool, gotToken: bool)
    : (r: (Reader, Option<ReaderError>))
    requires !(gotUrl && gotToken)
    requires gotUrl ==> reader.url.Some?
    requires gotToken ==> reader.token.Some?
    ensures r.0.initialized == reader.initialized && r.0.fileName == reader.fileName
    ensures r.1.None? ==> r.0.url.Some? && r.0.token.Some?
    ensures r.1.Some? ==> r.1.value == UrlOrTokenMissing
    ensures reader.url.Some? ==> r.0.url.Some?
    ensures reader.token.Some? ==> r.0.token.Some?
    decreases |lines|
  {
    if |lines| == 0 then (reader, Some(UrlOrTokenMissing))
    else
      var key := ParseLine(lines[0]).0;
      var next := Assign(reader, lines[0]);
      var gotUrl' := gotUrl || key == "url";
      var gotToken' := gotToken || key == "token";
      if gotUrl' && gotToken' then (next, None)
      else ReadConfiguration(next, lines[1..], gotUrl', gotToken')
  }

  /** Once both keys are seen, later lines have no effect. */
  lemma {:induction false} LinesAfterBothKeysIgnored(reader: Reader, lines: seq<string>, more: seq<string>,
                                                      gotUrl: bool, gotToken: bool)
    requires !(gotUrl && gotToken)
    requires gotUrl ==> reader.url.Some?
    requires gotToken ==> reader.token.Some?
    requires ReadConfiguration(reader, lines, gotUrl, gotToken).1.None?
    ensures ReadConfiguration(reader, lines + more, gotUrl, gotToken)
         == ReadConfiguration(reader, lines, gotUrl, gotToken)
    decreases |lines|
  {
    assert (lines + more)[0] == lines[0];
    assert (lines + more)[1..] == lines[1..] + more;
    var key := ParseLine(lines[0]).0;
    var next := Assign(reader, lines[0]);
    var gotUrl' := gotUrl || key == "url";
    var gotToken' := gotToken || key == "token";
    if gotUrl' && gotToken' {
      assert ReadConfiguration(reader, lines + more, gotUrl, gotToken) == (next, None);
    } else {
      LinesAfterBothKeysIgnored(next, lines[1..], more, gotUrl', gotToken');
    }
  }

  /** Some line has the key `name`. */
  predicate HasKey(lines: seq<string>, name: string) {
    exists i :: 0 <= i < |lines| && ParseLine(lines[i]).0 == name
  }

  lemma HasKeyCons(lines: seq<string>, name: string)
    requires |lines| > 0
    ensures HasKey(lines, name) <==> ParseLine(lines[0]).0 == name || HasKey(lines[1..], name)
  {
    if HasKey(lines[1..], name) {
      var i :| 0 <= i < |lines[1..]| && ParseLine(lines[1..][i]).0 == name;
      assert ParseLine(lines[i + 1]).0 == name;
    }
    if HasKey(lines, name) {
      var i :| 0 <= i < |lines| && ParseLine(lines[i]).0 == name;
      if i > 0 {
        assert ParseLine(lines[1..][i - 1]).0 == name;
      }
    }
  }

  /** The loop succeeds exactly when `url` and `token` have each been seen
      before or appear on some line. */
  lemma {:induction false} ReadSucceedsIffKeysPresent(reader: Reader, lines: seq<string>, gotUrl: bool, gotToken: bool)
    requires !(gotUrl && gotToken)
    requires gotUrl ==> reader.url.Some?
    requires gotToken ==> reader.token.Some?
    ensures ReadConfiguration(reader, lines, gotUrl, gotToken).1.None?
      <==> (gotUrl || HasKey(lines, "url")) && (gotToken || HasKey(lines, "token"))
    decreases |lines|
  {
    if |lines| > 0 {
      HasKeyCons(lines, "url");
      HasKeyCons(lines, "token");
      var key := ParseLine(lines[0]).0;
      var next := Assign(reader, lines[0]);
      if !((gotUrl || key == "url") && (gotToken || key == "token")) {
        ReadSucceedsIffKeysPresent(next, lines[1..], gotUrl || key == "url", gotToken || key == "token");
      }
    }
  }

  /** A file is read successfully exactly when it has a `url` line and a `token` line. */
  lemma ReadSucceedsIffBothKeys(reader: Reader, lines: seq<string>)
    ensures ReadConfiguration(reader, lines, false, false).1.None?
      <==> HasKey(lines, "url") && HasKey(lines, "token")
  {
    ReadSucceedsIffKeysPresent(reader, lines, false, false);
  }

  /** `v` is the value of some line whose key is `name`. */
  predicate ValueOfLine(lines: seq<string>, name: string, v: Option<string>) {
    v.Some? && exists i :: 0 <= i < |lines| && ParseLine(lines[i]) == (name, v.value)
  }

  lemma ValueOfLineCons(lines: seq<string>, name: string, v: Option<string>)
    requires |lines| > 0 && ValueOfLine(lines[1..], name, v)
    ensures ValueOfLine(lines, name, v)
  {
    var i :| 0 <= i < |lines[1..]| && ParseLine(lines[1..][i]) == (name, v.value);
    assert ParseLine(lines[i + 1]) == (name, v.value);
  }

  /** From any point of the loop, `url` is either left as it was or holds the
      value of one of the remaining lines: the former when no remaining line
      has the key, the latter when it had not been seen yet. */
  lemma {:induction false} ReadUrlFromLines(reader: Reader, lines: seq<string>, gotUrl: bool, gotToken: bool)
    requires !(gotUrl && gotToken)
    requires gotUrl ==> reader.url.Some?
    requires gotToken ==> reader.token.Some?
    ensures var r := ReadConfiguration(reader, lines, gotUrl, gotToken).0;
      r.url == reader.url || ValueOfLine(lines, "url", r.url)
    ensures !HasKey(lines, "url") ==> ReadConfiguration(reader, lines, gotUrl, gotToken).0.url == reader.url
    ensures !gotUrl && HasKey(lines, "url") ==>
      ValueOfLine(lines, "url", ReadConfiguration(reader, lines, gotUrl, gotToken).0.url)
    decreases |lines|
  {
    if |lines| > 0 {
      HasKeyCons(lines, "url");
      var (key, value) := ParseLine(lines[0]);
      var next := Assign(reader, lines[0]);
      var gotUrl' := gotUrl || key == "url";
      var gotToken' := gotToken || key == "token";
      if key == "url" {
        assert next.url == Some(value);
        assert ValueOfLine(lines, "url", Some(value)) by {
          assert ParseLine(lines[0]) == ("url", value);
        }
      } else {
        assert next.url == reader.url;
      }
      if !(gotUrl' && gotToken') {
        ReadUrlFromLines(next, lines[1..], gotUrl', gotToken');
        var r := ReadConfiguration(next, lines[1..], gotUrl', gotToken').0;
        if ValueOfLine(lines[1..], "url", r.url) {
          ValueOfLineCons(lines, "url", r.url);
        }
      }
    }
  }

  /** The same for `token`. */
  lemma {:induction false} ReadTokenFromLines(reader: Reader, lines: seq<string>, gotUrl: bool, gotToken: bool)
    requires !(gotUrl && gotToken)
    requires gotUrl ==> reader.url.Some?
    requires gotToken ==> reader.token.Some?
    ensures var r := ReadConfiguration(reader, lines, gotUrl, gotToken).0;
      r.token == reader.token || ValueOfLine(lines, "token", r.token)
    ensures !HasKey(lines, "token") ==> ReadConfiguration(reader, lines, gotUrl, gotToken).0.token == reader.token
    ensures !gotToken && HasKey(lines, "token") ==>
      ValueOfLine(lines, "token", ReadConfiguration(reader, lines, gotUrl, gotToken).0.token)
    decreases |lines|
  {
    if |lines| > 0 {
      HasKeyCons(lines, "token");
      var (key, value) := ParseLine(lines[0]);
      var next := Assign(reader, lines[0]);
      var gotUrl' := gotUrl || key == "url";
      var gotToken' := gotToken || key == "token";
      if key == "token" {
        assert next.token == Some(value);
        assert ValueOfLine(lines, "token", Some(value)) by {
          assert ParseLine(lines[0]) == ("token", value);
        }
      } else {
        assert next.token == reader.token;
      }
      if !(gotUrl' && gotToken') {
        ReadTokenFromLines(next, lines[1..], gotUrl', gotToken');
        var r := ReadConfiguration(next, lines[1..], gotUrl', gotToken').0;
        if ValueOfLine(lines[1..], "token", r.token) {
          ValueOfLineCons(lines, "token", r.token);
        }
      }
    }
  }

  /** A file's `url` and `token` are read from its own lines: each is the
      value of some line with that key, and is left unassigned when there is
      none. */
  lemma ReadTakesValuesFromLines(reader: Reader, lines: seq<string>)
    ensures var r := ReadConfiguration(reader, lines, false, false).0;
      (HasKey(lines, "url") ==> ValueOfLine(lines, "url", r.url))
      && (HasKey(lines, "token") ==> ValueOfLine(lines, "token", r.token))
      && (!HasKey(lines, "url") ==> r.url == reader.url)
      && (!HasKey(lines, "token") ==> r.token == reader.token)
  {
    ReadUrlFromLines(reader, lines, false, false);
    ReadTokenFromLines(reader, lines, false, false);
  }

  /** Until the loop returns, each line is applied on top of the previous
      ones, so a repeated key's last occurrence before the return wins. */
  lemma {:induction false} ReadAppendLine(reader: Reader, lines: seq<string>, line: string, gotUrl: bool, gotToken: bool)
    requires !(gotUrl && gotToken)
    requires gotUrl ==> reader.url.Some?
    requires gotToken ==> reader.token.Some?
    requires ReadConfiguration(reader, lines, gotUrl, gotToken).1.Some?
    ensures var gotUrl' := gotUrl || HasKey(lines, "url");
      var gotToken' := gotToken || HasKey(lines, "token");
      var read := ReadConfiguration(reader, lines, gotUrl, gotToken).0;
      !(gotUrl' && gotToken') && (gotUrl' ==> read.url.Some?) && (gotToken' ==> read.token.Some?)
      && ReadConfiguration(reader, lines + [line], gotUrl, gotToken)
         == ReadConfiguration(read, [line], gotUrl', gotToken')
    decreases |lines|
  {
    ReadSucceedsIffKeysPresent(reader, lines, gotUrl, gotToken);
    ReadUrlFromLines(reader, lines, gotUrl, gotToken);
    ReadTokenFromLines(reader, lines, gotUrl, gotToken);
    if |lines| == 0 {
      assert lines + [line] == [line];
    } else {
      HasKeyCons(lines, "url");
      HasKeyCons(lines, "token");
      assert (lines + [line])[0] == lines[0];
      assert (lines + [line])[1..] == lines[1..] + [line];
      var key := ParseLine(lines[0]).0;
      ReadAppendLine(Assign(reader, lines[0]), lines[1..], line, gotUrl || key == "url", gotToken || key == "token");
    }
  }

  /** A short line whose key has no colon and nothing to trim parses to that
      key with an empty value. */
  lemma ShortLineParsesEmpty(key: string, value: string)
    requires ':' !in key && Trimmed(key)
    requires Utf16Length(key + ":" + value) <= 59
    ensures ParseLine(key + ":" + value) == (key, "")
  {
    TrimOfTrimmed(key);
    ShortLinesLoseValue(key, value);
  }

  /** A first line with key `url` is assigned and the loop goes on. */
  lemma ReadFirstUrlLine(reader: Reader, urlLine: string, rest: seq<string>)
    requires ParseLine(urlLine).0 == "url"
    ensures ReadConfiguration(reader, [urlLine] + rest, false, false)
         == ReadConfiguration(Assign(reader, urlLine), rest, true, false)
  {
    assert ([urlLine] + rest)[0] == urlLine;
    assert ([urlLine] + rest)[1..] == rest;
  }

  /** With `url` already seen, a `token` line ends the loop. */
  lemma ReadTokenLineAfterUrl(reader: Reader, tokenLine: string)
    requires reader.url.Some? && ParseLine(tokenLine).0 == "token"
    ensures ReadConfiguration(reader, [tokenLine], true, false) == (Assign(reader, tokenLine), None)
  {
  }

  /** The template's second line read by the whole loop: after a `url` line,
      a `token` line of at most 59 UTF-16 code units ends the read
      successfully with an empty token, whatever follows the colon. */
  lemma ShortTokenLineReadsEmpty(reader: Reader, urlLine: string, value: string)
    requires ParseLine(urlLine).0 == "url"
    requires Utf16Length("token:" + value) <= 59
    ensures ReadConfiguration(reader, [urlLine, "token:" + value], false, false)
         == (reader.(url := Some(ParseLine(urlLine).1), token := Some("")), None)
  {
    var tokenLine := "token:" + value;
    assert tokenLine == "token" + ":" + value;
    ShortLineParsesEmpty("token", value);
    EmptyTokenLineReadsEmpty(reader, urlLine, tokenLine);
  }

  lemma EmptyTokenLineReadsEmpty(reader: Reader, urlLine: string, tokenLine: string)
    requires ParseLine(urlLine).0 == "url" && ParseLine(tokenLine) == ("token", "")
    ensures ReadConfiguration(reader, [urlLine, tokenLine], false, false)
         == (reader.(url := Some(ParseLine(urlLine).1), token := Some("")), None)
  {
    ReadFirstUrlLine(reader, urlLine, [tokenLine]);
    ReadTokenLineAfterUrl(Assign(reader, urlLine), tokenLine);
    assert [urlLine] + [tokenLine] == [urlLine, tokenLine];
  }

  /** `Initialize`: idempotent once initialized; without a file it writes the
      template and stays uninitialized; otherwise reading decides. */
  function Initialize(reader: Reader, file: Option<seq<string>>): (r: (Reader, Option<ReaderError>))
    ensures reader.initialized ==> r == (reader, None)
    ensures !reader.initialized && file.None? ==> r == (reader, None)
    ensures !reader.initialized && file.Some? ==> r.0.initialized == r.1.None?
    ensures r.0.initialized && !reader.initialized ==> r.0.url.Some? && r.0.token.Some?
    ensures !reader.initialized && file.Some? ==>
      var (read, error) := ReadConfiguration(reader, file.value, false, false);
      r == (read.(initialized := error.None?), error)
  {
    if reader.initialized then (reader, None)
    else match file
      case None => (reader.(initialized := false), None)
      case Some(lines) =>
        var (read, error) := ReadConfiguration(reader, lines, false, false);
        if error.Some? then (read, error) else (read.(initialized := true), None)
  }
}

=== FILE: legacy_endpoint.dfy ===
/** The earlier endpoint, `MediaSensor/ApiEndpoint.cs`: URL and token come
    through the constructor, and the sensor subscription is made there. Its
    override logic is the same code as the later revision's and is modelled
    by the same `Endpoint.Overrides` machine. */
module LegacyEndpoint {
  import opened Results
  import opened Text
  import opened Data
  import Endpoint

  datatype LegacyEndpoint = LegacyEndpoint(url: string, token: string, active: bool, machine: Endpoint.Overrides)

  /** `ArgumentNullException` with the name of the rejected parameter. */
  datatype ArgumentNull = ArgumentNull(paramName: string)

  /** The constructor checks the URL, then the token, then the sensor. */
  function New(url: Option<string>, token: Option<string>, sensorPresent: bool)
    : (r: Result<LegacyEndpoint, ArgumentNull>)
    ensures r.Success? <==> !IsNullOrWhiteSpace(url) && !IsNullOrWhiteSpace(token) && sensorPresent
    ensures IsNullOrWhiteSpace(url) ==> r == Failure(ArgumentNull("url"))
    ensures !IsNullOrWhiteSpace(url) && IsNullOrWhiteSpace(token) ==> r == Failure(ArgumentNull("token"))
    ensures !IsNullOrWhiteSpace(url) && !IsNullOrWhiteSpace(token) && !sensorPresent
            ==> r == Failure(ArgumentNull("sensor"))
    ensures r.Success? ==> r.value.active && !r.value.machine.isOverriding
    ensures r.Success? ==> r.value.url == url.value && r.value.token == token.value
  {
    if IsNullOrWhiteSpace(url) then Failure(ArgumentNull("url"))
    else if IsNullOrWhiteSpace(token) then Failure(ArgumentNull("token"))
    else if !sensorPresent then Failure(ArgumentNull("sensor"))
    else Success(LegacyEndpoint(url.value, token.value, true, Endpoint.NoOverride))
  }

  /** A sensor report: ignored when equal, otherwise recorded, and sent only
      when not overriding. */
  function OnSensorStateChanged(ep: LegacyEndpoint, state: MediaState): (r: (LegacyEndpoint, seq<MediaState>))
    ensures state == ep.machine.current ==> r == (ep, [])
    ensures state != ep.machine.current ==> r.0 == ep.(machine := ep.machine.(current := state))
    ensures state != ep.machine.current ==> r.1 == (if ep.machine.isOverriding then [] else [state])
  {
    var t := Endpoint.SensorChanged(ep.machine, state);
    (ep.(machine := t.machine), t.notified)
  }

  /** Forces a state, sent unless it equals the reported one. */
  function Override(ep: LegacyEndpoint, state: MediaState): (r: (LegacyEndpoint, seq<MediaState>))
    ensures r.0.machine.isOverriding && r.0.machine.overriding == state
    ensures r.0 == ep.(machine := r.0.machine) && r.0.machine.current == ep.machine.current
    ensures r.1 == (if state != ep.machine.current then [state] else [])
  {
    var t := Endpoint.Override(ep.machine, state);
    (ep.(machine := t.machine), t.notified)
  }

  /** Returns to the reported state, sent unless it equals the overriding one. */
  function StopOverriding(ep: LegacyEndpoint): (r: (LegacyEndpoint, seq<MediaState>))
    ensures !r.0.machine.isOverriding
    ensures r.0 == ep.(machine := ep.machine.(isOverriding := false))
    ensures r.1 == (if ep.machine.current != ep.machine.overriding then [ep.machine.current] else [])
  {
    var t := Endpoint.StopOverriding(ep.machine);
    (ep.(machine := t.machine), t.notified)
  }

  /** The value mapping of this revision; it is the later revision's. */
  function WireValue(state: MediaState): (v: string)
    ensures v == Endpoint.WireValue(state)
    ensures v == "stopped" <==> state == Stopped
  {
    match state
    case Playing => "playing"
    case Standby => "playing"
    case Stopped => "stopped"
  }
}

=== FILE: legacy_sensor.dfy ===
/** The earlier sampler, `MediaSensor/Sensor.cs`: one timer, no debounce;
    every poll that classifies differently from the current state is
    published at once. */
module LegacySensor {
  import opened Data
  import Sensor

  datatype LegacyState = LegacyState(running: bool, current: MediaState)

  /** The constructor creates the (stopped) timer; the state is the enum default. */
  function New(): (s: LegacyState)
    ensures !s.running && s.current == Stopped
  {
    LegacyState(false, DefaultMediaState)
  }

  function Start(s: LegacyState): (r: LegacyState)
    ensures r.running && r.current == s.current
  {
    s.(running := true)
  }

  function Stop(s: LegacyState): (r: LegacyState)
    ensures !r.running && r.current == s.current
  {
    s.(running := false)
  }

  /** The classifier of this revision; it agrees with the later one on every level. */
  function GetState(level: real): (m: MediaState)
    ensures m == Sensor.Classify(level)
  {
    if level == 0.0 then Stopped
    else if level <= 0.00000001 then Standby
    else Playing
  }

  datatype Step = Step(state: LegacyState, emitted: seq<MediaState>)

  /** The timer callback: the sample becomes the current state at once, and
      is emitted exactly when it differs from the previous one. */
  function TimerElapsed(s: LegacyState, level: real): (r: Step)
    ensures r.state == s.(current := GetState(level))
    ensures r.emitted == (if GetState(level) != s.current then [GetState(level)] else [])
  {
    var sample := GetState(level);
    if sample != s.current then Step(s.(current := sample), [sample])
    else Step(s, [])
  }

  datatype Input = StartCall | StopCall | Tick(level: real)

  /** One input; the timer does not fire while stopped. */
  function Next(s: LegacyState, input: Input): Step {
    match input
    case StartCall => Step(Start(s), [])
    case StopCall => Step(Stop(s), [])
    case Tick(level) => if s.running then TimerElapsed(s, level) else Step(s, [])
  }

  function Run(s: LegacyState, inputs: seq<Input>): Step
    decreases |inputs|
  {
    if |inputs| == 0 then Step(s, [])
    else
      var first := Next(s, inputs[0]);
      var rest := Run(first.state, inputs[1..]);
      Step(rest.state, first.emitted + rest.emitted)
  }

  /** No two consecutive events carry the same value, the first differs from
      the starting state and the last is the final state. */
  lemma {:induction false} RunEmitsChangeLog(s: LegacyState, inputs: seq<Input>)
    ensures Sensor.ChangeLog(s.current, Run(s, inputs).emitted, Run(s, inputs).state.current)
    decreases |inputs|
  {
    if |inputs| > 0 {
      var first := Next(s, inputs[0]);
      assert Sensor.ChangeLog(s.current, first.emitted, first.state.current) by {
        if |first.emitted| > 0 {
          assert first.emitted[1..] == [];
        }
      }
      RunEmitsChangeLog(first.state, inputs[1..]);
      Sensor.ChangeLogAppend(s.current, first.emitted, first.state.current,
                             Run(first.state, inputs[1..]).emitted, Run(first.state, inputs[1..]).state.current);
    }
  }

  /** No debounce: a run that ends with a tick of a running timer ends in that
      tick's classification. */
  lemma {:induction false} LastTickWins(s: LegacyState, inputs: seq<Input>, level: real)
    requires Run(s, inputs).state.running
    ensures Run(s, inputs + [Tick(level)]).state.current == GetState(level)
    decreases |inputs|
  {
    if |inputs| == 0 {
      assert inputs + [Tick(level)] == [Tick(level)];
    } else {
      assert (inputs + [Tick(level)])[0] == inputs[0];
      assert (inputs + [Tick(level)])[1..] == inputs[1..] + [Tick(level)];
      LastTickWins(Next(s, inputs[0]).state, inputs[1..], level);
    }
  }
}

=== FILE: parsing.dfy ===
/** The two library parsers the configuration reader calls, `Int32.Parse` and
    `Boolean.Parse`, restricted to the invariant culture: both are partial and
    report failure as `None` where .NET throws. */
module Parsing {
  import opened Results

  const MinInt32: int := -0x8000_0000
  const MaxInt32: int := 0x7FFF_FFFF

  predicate IsDigit(c: char) {
    '0' <= c <= '9'
  }

  predicate AllDigits(s: string) {
    forall i :: 0 <= i < |s| ==> IsDigit(s[i])
  }

  function DigitValue(c: char): nat
    requires IsDigit(c)
  {
    c as int - '0' as int
  }

  function DigitChar(d: nat): (c: char)
    requires d < 10
    ensures IsDigit(c) && DigitValue(c) == d
  {
    ('0' as int + d) as char
  }

  /** Value of a decimal digit string, most significant digit first. */
  function DigitsValue(s: string): nat
    requires AllDigits(s)
  {
    if |s| == 0 then 0 else DigitsValue(s[..|s| - 1]) * 10 + DigitValue(s[|s| - 1])
  }

  /** The text after an optional leading sign. */
  function Unsigned(s: string): (u: string)
    ensures |s| > 0 && s[0] in "+-" ==> u == s[1..]
    ensures !(|s| > 0 && s[0] in "+-") ==> u == s
  {
    if |s| > 0 && (s[0] == '-' || s[0] == '+') then s[1..] else s
  }

  /** A sign, if any, followed by at least one decimal digit. */
  predicate SignedDigits(s: string) {
    |Unsigned(s)| > 0 && AllDigits(Unsigned(s))
  }

  /** The integer such a text denotes; `-0` denotes 0. */
  function SignedValue(s: string): int
    requires SignedDigits(s)
  {
    if s[0] == '-' then 0 - DigitsValue(Unsigned(s)) as int else DigitsValue(Unsigned(s))
  }

  /** `Int32.Parse` with `NumberStyles.Integer`: an optional sign, then one or
      more decimal digits; a value outside the 32-bit range is an overflow. */
  function ParseInt32(s: string): (r: Option<int>)
    ensures r.Some? ==> MinInt32 <= r.value <= MaxInt32
    ensures r.Some? ==> |s| > 0
    ensures r.Some? <==> SignedDigits(s) && MinInt32 <= SignedValue(s) <= MaxInt32
    ensures r.Some? ==> r.value == SignedValue(s)
  {
    var negative := |s| > 0 && s[0] == '-';
    var digits := if |s| > 0 && (s[0] == '-' || s[0] == '+') then s[1..] else s;
    if |digits| == 0 || !AllDigits(digits) then None
    else
      var v: int := if negative then 0 - DigitsValue(digits) as int else DigitsValue(digits);
      if MinInt32 <= v <= MaxInt32 then Some(v) else None
  }

  /** Decimal digits of `n` without leading zeros. */
  function Decimal(n: nat): (s: string)
    ensures |s| > 0 && AllDigits(s)
  {
    if n < 10 then [DigitChar(n)] else Decimal(n / 10) + [DigitChar(n % 10)]
  }

  lemma {:induction false} DecimalValue(n: nat)
    ensures DigitsValue(Decimal(n)) == n
  {
    if n >= 10 {
      var s := Decimal(n);
      assert s[..|s| - 1] == Decimal(n / 10);
      DecimalValue(n / 10);
    }
  }

  /** `Int32.ToString()` in the invariant culture. */
  function FormatInt32(n: int): string {
    if n < 0 then "-" + Decimal(-n) else Decimal(n)
  }

  /** Printing a 32-bit integer and parsing it back gives the same integer. */
  lemma ParseFormatRoundTrip(n: int)
    requires MinInt32 <= n <= MaxInt32
    ensures ParseInt32(FormatInt32(n)) == Some(n)
  {
    var s := FormatInt32(n);
    if n < 0 {
      DecimalValue(-n);
      assert s[0] == '-' && s[1..] == Decimal(-n);
    } else {
      DecimalValue(n);
      assert IsDigit(s[0]);
    }
  }

  function LowerAscii(c: char): char {
    if 'A' <= c <= 'Z' then (c as int + 32) as char else c
  }

  /** Ordinal comparison ignoring the case of ASCII letters. */
  predicate EqualsIgnoreCase(a: string, b: string) {
    |a| == |b| && forall i :: 0 <= i < |a| ==> LowerAscii(a[i]) == LowerAscii(b[i])
  }

  /** `Boolean.Parse`: "True" or "False" in any letter case. */
  function ParseBool(s: string): (r: Option<bool>)
    ensures r == Some(true) <==> EqualsIgnoreCase(s, "true")
    ensures r == Some(false) <==> EqualsIgnoreCase(s, "false")
  {
    if EqualsIgnoreCase(s, "true") then Some(true)
    else if EqualsIgnoreCase(s, "false") then Some(false)
    else None
  }
}

=== FILE: results.dfy ===
/** Failure-carrying values: a C# `null` becomes `None`, a thrown exception a `Failure`. */
module Results {

  datatype Option<+T> = None | Some(value: T)

  datatype Result<+T, +E> = Success(value: T) | Failure(error: E)
}

=== FILE: sensor.dfy ===
/** The debounce/latch sampler of `Sensor.cs`. The polling timer and the
    one-shot latch timer become two flags; their callbacks become the step
    functions `PollElapsed` and `LatchElapsed`, and raised `StateChanged`
    events become the sequence of media states a step emits. */
module Sensor {
  import opened Data

  /** Upper bound of the "standby" band of the peak meter (1E-08). */
  const StandbyThreshold: real := 0.00000001

  /** Classifies a peak meter value: exactly zero is silence, a tiny non-zero
      value is a paused stream, anything larger is sound. */
  function Classify(level: real): (m: MediaState)
    ensures m == Stopped <==> level == 0.0
    ensures m == Standby <==> level != 0.0 && level <= StandbyThreshold
    ensures m == Playing <==> level > StandbyThreshold
  {
    if level == 0.0 then Stopped
    else if level <= StandbyThreshold then Standby
    else Playing
  }

  /** Loudness order of the classes. */
  function Rank(m: MediaState): nat {
    match m
    case Stopped => 0
    case Standby => 1
    case Playing => 2
  }

  /** On the non-negative values a peak meter reports, a louder level never
      classifies as a quieter state. */
  lemma ClassifyMonotonic(a: real, b: real)
    requires 0.0 <= a <= b
    ensures Rank(Classify(a)) <= Rank(Classify(b))
  {
  }

  datatype SensorState = SensorState(
    initialized: bool,
    polling: bool,      // the polling timer is running
    latchArmed: bool,   // the one-shot latch timer is pending
    transient: MediaState,
    current: MediaState)

  /** Timers exist only once the sensor is initialized. */
  predicate Valid(s: SensorState) {
    (s.polling || s.latchArmed) ==> s.initialized
  }

  /** A freshly constructed sensor: no timers, both states at the enum default. */
  function New(): (s: SensorState)
    ensures Valid(s) && !s.initialized
    ensures s.transient == Stopped && s.current == Stopped
  {
    SensorState(false, false, false, DefaultMediaState, DefaultMediaState)
  }

  /** `System.Timers.Timer` rejects an interval that is not positive, so
      `Initialize` throws unless both delays of the configuration are. */
  predicate IntervalsAccepted(poll: int, latch: int) {
    poll > 0 && latch > 0
  }

  /** Creates both timers, stopped; the delays are checked by `IntervalsAccepted`. */
  function Initialize(s: SensorState): (r: SensorState)
    ensures Valid(r) && r.initialized && !r.polling && !r.latchArmed
    ensures r.transient == s.transient && r.current == s.current
  {
    s.(initialized := true, polling := false, latchArmed := false)
  }

  /** Starts the polling timer; does nothing before `Initialize`. */
  function Start(s: SensorState): (r: SensorState)
    requires Valid(s)
    ensures Valid(r)
    ensures !s.initialized ==> r == s
    ensures s.initialized ==> r == s.(polling := true)
  {
    if s.initialized then s.(polling := true) else s
  }

  /** Stops both timers; does nothing before `Initialize`. */
  function Stop(s: SensorState): (r: SensorState)
    requires Valid(s)
    ensures Valid(r) && !r.polling && !r.latchArmed
    ensures r.initialized == s.initialized && r.transient == s.transient && r.current == s.current
  {
    if s.initialized then s.(polling := false, latchArmed := false) else s
  }

  /** Stopping twice is stopping once. */
  lemma StopIdempotent(s: SensorState)
    requires Valid(s)
    ensures Stop(Stop(s)) == Stop(s)
  {
  }

  datatype Step = Step(state: SensorState, emitted: seq<MediaState>)

  /** The polling callback: a sample different from the transient state
      replaces it and restarts the latch timer; the latched state is never
      touched and nothing is emitted. */
  function PollElapsed(s: SensorState, level: real): (r: Step)
    requires Valid(s) && s.initialized
    ensures Valid(r.state) && r.emitted == []
    ensures r.state.current == s.current && r.state.transient == Classify(level)
    ensures Classify(level) == s.transient ==> r.state == s
    ensures Classify(level) != s.transient ==> r.state.latchArmed
    ensures r.state.polling == s.polling && r.state.initialized
  {
    var sample := Classify(level);
    if sample != s.transient then Step(s.(transient := sample, latchArmed := true), [])
    else Step(s, [])
  }

  /** The latch callback: the one-shot timer is spent; a transient state that
      survived the whole latch interval becomes the current state and is
      emitted once, and an equal one means a glitch was averted. */
  function LatchElapsed(s: SensorState): (r: Step)
    requires Valid(s) && s.initialized
    ensures Valid(r.state) && !r.state.latchArmed
    ensures r.state.transient == s.transient && r.state.current == s.transient
    ensures s.transient != s.current ==> r.emitted == [s.transient]
    ensures s.transient == s.current ==> r.emitted == [] && r.state == s.(latchArmed := false)
    ensures r.state == s.(latchArmed := false, current := s.transient)
  {
    var fired := s.(latchArmed := false);
    if fired.current != fired.transient then
      Step(fired.(current := fired.transient), [fired.transient])
    else
      Step(fired, [])
  }

  /** What can happen to a sensor: calls from its owner and timer expiries. */
  datatype Input = InitializeCall | StartCall | StopCall | PollTimer(level: real) | LatchTimer

  /** One input; a timer that is not running does not fire. */
  function Next(s: SensorState, input: Input): (r: Step)
    requires Valid(s)
    ensures Valid(r.state)
  {
    match input
    case InitializeCall => Step(Initialize(s), [])
    case StartCall => Step(Start(s), [])
    case StopCall => Step(Stop(s), [])
    case PollTimer(level) => if s.polling then PollElapsed(s, level) else Step(s, [])
    case LatchTimer => if s.latchArmed then LatchElapsed(s) else Step(s, [])
  }

  /** A whole trace of inputs, emitted events concatenated in order. */
  function Run(s: SensorState, inputs: seq<Input>): (r: Step)
    requires Valid(s)
    ensures Valid(r.state)
    decreases |inputs|
  {
    if |inputs| == 0 then Step(s, [])
    else
      var first := Next(s, inputs[0]);
      var rest := Run(first.state, inputs[1..]);
      Step(rest.state, first.emitted + rest.emitted)
  }

  /** `events` is an exact change log leading from `from` to `to`: every
      event differs from the one before it (the first from `from`), and the
      last one is `to`. */
  predicate ChangeLog(from: MediaState, events: seq<MediaState>, to: MediaState)
    decreases |events|
  {
    if |events| == 0 then from == to
    else events[0] != from && ChangeLog(events[0], events[1..], to)
  }

  lemma {:induction false} ChangeLogAppend(a: MediaState, e1: seq<MediaState>, b: MediaState,
                                            e2: seq<MediaState>, c: MediaState)
    requires ChangeLog(a, e1, b) && ChangeLog(b, e2, c)
    ensures ChangeLog(a, e1 + e2, c)
    decreases |e1|
  {
    if |e1| > 0 {
      assert (e1 + e2)[0] == e1[0];
      assert (e1 + e2)[1..] == e1[1..] + e2;
      ChangeLogAppend(e1[0], e1[1..], b, e2, c);
    } else {
      assert e1 + e2 == e2;
    }
  }

  /** No two consecutive events carry the same value, none repeats the state
      the sensor started in, and the last one is the latched state. */
  lemma {:induction false} RunEmitsChangeLog(s: SensorState, inputs: seq<Input>)
    requires Valid(s)
    ensures ChangeLog(s.current, Run(s, inputs).emitted, Run(s, inputs).state.current)
    decreases |inputs|
  {
    if |inputs| > 0 {
      var first := Next(s, inputs[0]);
      assert ChangeLog(s.current, first.emitted, first.state.current) by {
        if |first.emitted| > 0 {
          assert first.emitted[1..] == [];
        }
      }
      RunEmitsChangeLog(first.state, inputs[1..]);
      ChangeLogAppend(s.current, first.emitted, first.state.current,
                      Run(first.state, inputs[1..]).emitted, Run(first.state, inputs[1..]).state.current);
    }
  }

  /** Debounce stability: while the latch timer never expires, the latched
      state never changes and nothing is emitted, however the samples move. */
  lemma {:induction false} NoLatchNoChange(s: SensorState, inputs: seq<Input>)
    requires Valid(s)
    requires forall i :: 0 <= i < |inputs| ==> !inputs[i].LatchTimer?
    ensures Run(s, inputs).emitted == []
    ensures Run(s, inputs).state.current == s.current
    decreases |inputs|
  {
    if |inputs| > 0 {
      NoLatchNoChange(Next(s, inputs[0]).state, inputs[1..]);
    }
  }

  /** After `Stop`, and until the next `Start`, no event is emitted. */
  lemma {:induction false} SilentAfterStop(s: SensorState, inputs: seq<Input>)
    requires Valid(s) && !s.polling && !s.latchArmed
    requires forall i :: 0 <= i < |inputs| ==> !inputs[i].StartCall?
    ensures Run(s, inputs).emitted == []
    ensures Run(s, inputs).state.current == s.current
    decreases |inputs|
  {
    if |inputs| > 0 {
      SilentAfterStop(Next(s, inputs[0]).state, inputs[1..]);
    }
  }

  /** Debounce promotion: once a poll has changed the transient state, a latch
      expiry with no poll in between emits exactly that state, if it differs
      from the latched one. */
  lemma PollThenLatchPromotes(s: SensorState, level: real)
    requires Valid(s) && s.initialized && s.polling
    requires Classify(level) != s.current
    requires Classify(level) != s.transient || s.latchArmed
    ensures Run(s, [PollTimer(level), LatchTimer]).emitted == [Classify(level)]
    ensures Run(s, [PollTimer(level), LatchTimer]).state.current == Classify(level)
  {
    var p := Next(s, PollTimer(level));
    assert p.state.latchArmed && p.state.transient == Classify(level);
    var l := Next(p.state, LatchTimer);
    assert l.emitted == [Classify(level)];
    assert Run(p.state, [LatchTimer]) == Step(l.state, l.emitted + []) by {
      assert [LatchTimer][1..] == [];
    }
    assert [PollTimer(level), LatchTimer][1..] == [LatchTimer];
  }

  /** A standby trickle that flickers back to silence before the latch
      interval ends is never published: the sensor ends where it started. */
  lemma FlickerSuppressed()
    ensures var s := Start(Initialize(New()));
      Run(s, [PollTimer(0.0), PollTimer(0.000000001), PollTimer(0.0), LatchTimer]) == Step(s, [])
  {
    var trickle := 0.000000001;
    var s0 := Start(Initialize(New()));
    var armed := s0.(transient := Standby, latchArmed := true);
    var restarted := s0.(latchArmed := true);
    assert Next(s0, PollTimer(0.0)) == Step(s0, []);
    assert Next(s0, PollTimer(trickle)) == Step(armed, []);
    assert Next(armed, PollTimer(0.0)) == Step(restarted, []);
    assert Next(restarted, LatchTimer) == Step(s0, []);
    RunCons(restarted, LatchTimer, []);
    RunCons(armed, PollTimer(0.0), [LatchTimer]);
    RunCons(s0, PollTimer(trickle), [PollTimer(0.0), LatchTimer]);
    RunCons(s0, PollTimer(0.0), [PollTimer(trickle), PollTimer(0.0), LatchTimer]);
  }

  /** A standby trickle that holds through a whole latch interval is
      published exactly once. */
  lemma TricklePromoted()
    ensures var s := Start(Initialize(New()));
      Run(s, [PollTimer(0.000000001), PollTimer(0.000000001), LatchTimer]).emitted == [Standby]
  {
    var trickle := 0.000000001;
    var s0 := Start(Initialize(New()));
    var armed := s0.(transient := Standby, latchArmed := true);
    RunCons(armed, LatchTimer, []);
    RunCons(armed, PollTimer(trickle), [LatchTimer]);
    RunCons(s0, PollTimer(trickle), [PollTimer(trickle), LatchTimer]);
  }

  /** The two together: only the held trickle is published. */
  lemma FlickerSuppressedThenPromoted()
    ensures var s := Start(Initialize(New()));
      var trickle := 0.000000001;
      Run(s, [PollTimer(0.0), PollTimer(trickle), PollTimer(0.0), LatchTimer,
              PollTimer(trickle), PollTimer(trickle), LatchTimer]).emitted == [Standby]
  {
    var trickle := 0.000000001;
    var s0 := Start(Initialize(New()));
    var flicker := [PollTimer(0.0), PollTimer(trickle), PollTimer(0.0), LatchTimer];
    var hold := [PollTimer(trickle), PollTimer(trickle), LatchTimer];
    FlickerSuppressed();
    TricklePromoted();
    RunAppend(s0, flicker, hold);
    assert flicker + hold == [PollTimer(0.0), PollTimer(trickle), PollTimer(0.0), LatchTimer,
                              PollTimer(trickle), PollTimer(trickle), LatchTimer];
  }

  /** Running two traces one after the other is running their concatenation. */
  lemma {:induction false} RunAppend(s: SensorState, first: seq<Input>, second: seq<Input>)
    requires Valid(s)
    ensures var a := Run(s, first); var b := Run(a.state, second);
      Run(s, first + second) == Step(b.state, a.emitted + b.emitted)
    decreases |first|
  {
    if |first| == 0 {
      assert first + second == second;
    } else {
      var n := Next(s, first[0]);
      assert (first + second)[0] == first[0];
      assert (first + second)[1..] == first[1..] + second;
      RunAppend(n.state, first[1..], second);
      var a := Run(n.state, first[1..]);
      var b := Run(a.state, second);
      assert n.emitted + (a.emitted + b.emitted) == (n.emitted + a.emitted) + b.emitted;
    }
  }

  lemma RunCons(s: SensorState, input: Input, rest: seq<Input>)
    requires Valid(s)
    ensures Run(s, [input] + rest)
         == Step(Run(Next(s, input).state, rest).state, Next(s, input).emitted + Run(Next(s, input).state, rest).emitted)
  {
    assert ([input] + rest)[0] == input;
    assert ([input] + rest)[1..] == rest;
  }
}

=== FILE: seqs.dfy ===
/** Generic sequence helpers. */
module Seqs {
  /** `f` applied to every element, in order (LINQ's `Select`). */
  function Map<A, B>(f: A -> B, xs: seq<A>): (ys: seq<B>)
    ensures |ys| == |xs|
    ensures forall i :: 0 <= i < |xs| ==> ys[i] == f(xs[i])
  {
    if xs == [] then [] else [f(xs[0])] + Map(f, xs[1..])
  }

  /** Mapping distributes over concatenation. */
  lemma {:induction false} MapAppend<A, B>(f: A -> B, xs: seq<A>, more: seq<A>)
    ensures Map(f, xs + more) == Map(f, xs) + Map(f, more)
  {
    if xs != [] {
      assert (xs + more)[1..] == xs[1..] + more;
      MapAppend(f, xs[1..], more);
    }
  }
}

=== FILE: text.dfy ===
/** The few pieces of .NET string handling the configuration code relies on. */
module Text {
  import opened Results

  /** `Char.IsWhiteSpace`: the Unicode space, line and paragraph separators
      (categories Zs, Zl, Zp) plus the controls U+0009..U+000D and U+0085. */
  predicate IsWhiteSpace(c: char) {
    c == ' ' || ('\t' <= c <= '\r') || c == '\U{85}' || c == '\U{A0}' || c == '\U{1680}'
    || ('\U{2000}' <= c <= '\U{200A}') || c == '\U{2028}' || c == '\U{2029}'
    || c == '\U{202F}' || c == '\U{205F}' || c == '\U{3000}'
  }

  predicate AllWhiteSpace(s: string) {
    forall i :: 0 <= i < |s| ==> IsWhiteSpace(s[i])
  }

  /** No white space at either end. */
  predicate Trimmed(s: string) {
    s == [] || (!IsWhiteSpace(s[0]) && !IsWhiteSpace(s[|s| - 1]))
  }

  /** Position of the first character at or after `from` that is not white
      space, or `|s|` if there is none. */
  function SkipWhiteSpace(s: string, from: nat): (i: nat)
    requires from <= |s|
    ensures from <= i <= |s|
    ensures forall k :: from <= k < i ==> IsWhiteSpace(s[k])
    ensures i == |s| || !IsWhiteSpace(s[i])
    decreases |s| - from
  {
    if from < |s| && IsWhiteSpace(s[from]) then SkipWhiteSpace(s, from + 1) else from
  }

  /** Position just after the last character in `s[lo..hi]` that is not
      white space, or `lo` if there is none. */
  function SkipWhiteSpaceBack(s: string, lo: nat, hi: nat): (j: nat)
    requires lo <= hi <= |s|
    ensures lo <= j <= hi
    ensures forall k :: j <= k < hi ==> IsWhiteSpace(s[k])
    ensures j == lo || !IsWhiteSpace(s[j - 1])
    decreases hi - lo
  {
    if lo < hi && IsWhiteSpace(s[hi - 1]) then SkipWhiteSpaceBack(s, lo, hi - 1) else hi
  }

  lemma SkipWhiteSpaceUnique(s: string, from: nat, i: nat)
    requires from <= i <= |s|
    requires forall k :: from <= k < i ==> IsWhiteSpace(s[k])
    requires i == |s| || !IsWhiteSpace(s[i])
    ensures SkipWhiteSpace(s, from) == i
  {
  }

  lemma SkipWhiteSpaceBackUnique(s: string, lo: nat, hi: nat, j: nat)
    requires lo <= j <= hi <= |s|
    requires forall k :: j <= k < hi ==> IsWhiteSpace(s[k])
    requires j == lo || !IsWhiteSpace(s[j - 1])
    ensures SkipWhiteSpaceBack(s, lo, hi) == j
  {
  }

  /** Number of white-space characters `Trim` removes from the front. */
  function LeadingWhiteSpace(s: string): (n: nat)
    ensures n <= |s|
  {
    SkipWhiteSpace(s, 0)
  }

  /** `String.Trim()`: white space removed from both ends. */
  function Trim(s: string): (r: string)
    ensures Trimmed(r)
    ensures |r| <= |s|
  {
    var lead := SkipWhiteSpace(s, 0);
    s[lead..SkipWhiteSpaceBack(s, lead, |s|)]
  }

  /** `Trim` keeps the slice of `s` that starts at `LeadingWhiteSpace(s)`, and
      what it removes on either side is white space only. */
  lemma TrimRemovesOnlyWhiteSpace(s: string)
    ensures LeadingWhiteSpace(s) + |Trim(s)| <= |s|
    ensures Trim(s) == s[LeadingWhiteSpace(s)..LeadingWhiteSpace(s) + |Trim(s)|]
    ensures AllWhiteSpace(s[..LeadingWhiteSpace(s)])
    ensures AllWhiteSpace(s[LeadingWhiteSpace(s) + |Trim(s)|..])
  {
  }

  /** Trimming introduces no character the original lacks. */
  lemma TrimAddsNothing(s: string, c: char)
    requires c !in s
    ensures c !in Trim(s)
  {
  }

  /** A string with nothing to trim is its own trim. */
  lemma TrimOfTrimmed(s: string)
    requires Trimmed(s)
    ensures Trim(s) == s
  {
    SkipWhiteSpaceUnique(s, 0, 0);
    SkipWhiteSpaceBackUnique(s, 0, |s|, |s|);
  }

  /** Dropping some of the leading white space does not change the trim. */
  lemma TrimAfterWhiteSpacePrefix(v: string, a: nat)
    requires a <= |v| && forall k :: 0 <= k < a ==> IsWhiteSpace(v[k])
    ensures Trim(v[a..]) == Trim(v)
  {
    var lead := SkipWhiteSpace(v, 0);
    SkipAfterWhiteSpacePrefix(v, a);
    SkipBackAfterPrefix(v, a, lead);
    TrimOfSuffix(v, a, lead, SkipWhiteSpaceBack(v, lead, |v|));
  }

  /** The trim of `v[a..]`, given where its white space ends, as a slice of `v`. */
  lemma TrimOfSuffix(v: string, a: nat, lo: nat, hi: nat)
    requires a <= lo <= hi <= |v|
    requires SkipWhiteSpace(v[a..], 0) == lo - a
    requires SkipWhiteSpaceBack(v[a..], lo - a, |v[a..]|) == hi - a
    ensures Trim(v[a..]) == v[lo..hi]
  {
    SliceOfSuffix(v, a, lo, hi);
  }

  lemma SliceOfSuffix(v: string, a: nat, lo: nat, hi: nat)
    requires a <= lo <= hi <= |v|
    ensures v[a..][lo - a..hi - a] == v[lo..hi]
  {
  }

  /** Skipping white space in `v[a..]` stops where it stops in `v`, shifted by `a`. */
  lemma SkipAfterWhiteSpacePrefix(v: string, a: nat)
    requires a <= |v| && forall k :: 0 <= k < a ==> IsWhiteSpace(v[k])
    ensures a <= SkipWhiteSpace(v, 0) && SkipWhiteSpace(v[a..], 0) == SkipWhiteSpace(v, 0) - a
  {
    SkipThroughWhiteSpace(v, 0, a);
    SkipInSuffix(v, a);
  }

  /** Skipping from anywhere inside a run of white space ends at the same place. */
  lemma {:induction false} SkipThroughWhiteSpace(v: string, from: nat, a: nat)
    requires from <= a <= |v| && forall k :: from <= k < a ==> IsWhiteSpace(v[k])
    ensures SkipWhiteSpace(v, from) == SkipWhiteSpace(v, a)
    decreases a - from
  {
    if from < a {
      assert IsWhiteSpace(v[from]);
      SkipThroughWhiteSpace(v, from + 1, a);
    }
  }

  /** Skipping in `v[a..]` from its start is skipping in `v` from `a`, shifted. */
  lemma SkipInSuffix(v: string, a: nat)
    requires a <= |v|
    ensures SkipWhiteSpace(v[a..], 0) == SkipWhiteSpace(v, a) - a
  {
    var i := SkipWhiteSpace(v, a);
    SkipWhiteSpaceUnique(v[a..], 0, i - a);
  }

  /** Skipping white space backwards in a suffix of `v` stops where it stops in `v`, shifted. */
  lemma SkipBackAfterPrefix(v: string, a: nat, lo: nat)
    requires a <= lo <= |v|
    ensures SkipWhiteSpaceBack(v[a..], lo - a, |v[a..]|) == SkipWhiteSpaceBack(v, lo, |v|) - a
  {
    var end := SkipWhiteSpaceBack(v, lo, |v|);
    SkipWhiteSpaceBackUnique(v[a..], lo - a, |v| - a, end - a);
  }

  /** Trimming `prefix + [c] + rest` around a non-white `c` trims only the
      front of `prefix` and the back of `rest`, so `c` survives right after
      what is left of `prefix`. */
  lemma TrimAroundCharacter(prefix: string, c: char, rest: string)
    requires !IsWhiteSpace(c)
    ensures var s := prefix + [c] + rest; var a := LeadingWhiteSpace(s); var t := Trim(s);
      a <= |prefix| && (forall k :: 0 <= k < a ==> IsWhiteSpace(prefix[k]))
      && |prefix| - a < |t| && t == prefix[a..] + [c] + t[|prefix| - a + 1..]
  {
    var s := prefix + [c] + rest;
    SplitAround(prefix, c, rest);
    var a := SkipWhiteSpace(s, 0);
    var end := SkipWhiteSpaceBack(s, a, |s|);
    assert a <= |prefix|;
    assert |prefix| < end;
    var t := s[a..end];
    assert t == Trim(s);
    assert forall k :: 0 <= k < a ==> prefix[k] == s[k];
    assert t[..|prefix| - a] == prefix[a..];
    assert t == t[..|prefix| - a] + [c] + t[|prefix| - a + 1..];
  }

  /** `Trim` is idempotent. */
  lemma TrimIdempotent(s: string)
    ensures Trim(Trim(s)) == Trim(s)
  {
    TrimOfTrimmed(Trim(s));
  }

  /** A string of white space only trims to the empty string, and only such a string does. */
  lemma TrimEmptyIffWhiteSpace(s: string)
    ensures Trim(s) == [] <==> AllWhiteSpace(s)
  {
    if AllWhiteSpace(s) {
      SkipWhiteSpaceUnique(s, 0, |s|);
    }
  }

  /** `String.IsNullOrWhiteSpace`. */
  predicate IsNullOrWhiteSpace(s: Option<string>) {
    s.None? || AllWhiteSpace(s.value)
  }

  /** `String.Length`: .NET strings count UTF-16 code units, so a character
      beyond the Basic Multilingual Plane counts twice (a surrogate pair). */
  function Utf16Length(s: string): (n: nat)
    ensures |s| <= n <= 2 * |s|
    ensures n == |s| <==> forall i :: 0 <= i < |s| ==> s[i] as int <= 0xFFFF
    ensures |s| == 1 ==> n == (if s[0] as int <= 0xFFFF then 1 else 2)
  {
    if |s| == 0 then 0
    else
      var rest := Utf16Length(s[1..]);
      assert forall i :: 1 <= i < |s| ==> s[i] == s[1..][i - 1];
      (if s[0] as int <= 0xFFFF then 1 else 2) + rest
  }

  /** Code units add up over concatenation, so with the single-character
      case every character counts one unit in the Basic Multilingual Plane
      and two beyond it. */
  lemma {:induction false} Utf16LengthAppend(s: string, t: string)
    ensures Utf16Length(s + t) == Utf16Length(s) + Utf16Length(t)
    decreases |s|
  {
    if |s| > 0 {
      assert (s + t)[0] == s[0];
      assert (s + t)[1..] == s[1..] + t;
      Utf16LengthAppend(s[1..], t);
    } else {
      assert s + t == t;
    }
  }

  /** `String.IndexOf(char)`: the position of the first occurrence, or `None` (the C# -1). */
  function IndexOf(s: string, c: char): (r: Option<nat>)
    ensures r.None? <==> c !in s
    ensures r.Some? ==> r.value < |s| && s[r.value] == c && c !in s[..r.value]
  {
    if |s| == 0 then None
    else if s[0] == c then Some(0)
    else match IndexOf(s[1..], c)
      case None => None
      case Some(i) =>
        assert s[..i + 1] == [s[0]] + s[1..][..i];
        Some(i + 1)
  }

  /** The first occurrence of `c` in `prefix + [c] + rest`, when `prefix` has none, is right after `prefix`. */
  lemma IndexOfAfterPrefix(prefix: string, c: char, rest: string)
    requires c !in prefix
    ensures IndexOf(prefix + [c] + rest, c) == Some(|prefix|)
  {
    SplitAround(prefix, c, rest);
  }

  /** The two halves around the character at position `|prefix|`. */
  lemma SplitAround(prefix: string, c: char, rest: string)
    ensures var s := prefix + [c] + rest;
      |s| == |prefix| + 1 + |rest| && s[|prefix|] == c
      && s[..|prefix|] == prefix && s[|prefix| + 1..] == rest
  {
    var s := prefix + [c] + rest;
    assert s[..|prefix|] == prefix;
    assert s[|prefix| + 1..] == rest;
  }
}
